=== FILE: README.md ===
# A Dafny model of the research agent's loop, citation helpers and configuration

The agent answers a question by iterated web research:

1. A language model writes a batch of search queries.
2. One web-research branch runs per query. Each branch searches, asks a model to analyse the results, and turns `[i]` markers in the analysis into links.
3. A reflection step judges whether the evidence so far is sufficient.
4. The routing step then does one of two things:
   - it finalizes, when the evidence is sufficient or the loop budget is used up;
   - otherwise it dispatches the reflection's follow-up queries as the next batch.
5. Finalization asks a model for the answer and collects the gathered sources.

This project models that graph, the citation and source helpers, and the configuration resolution. It proves properties of the model in Dafny.

Modules:

- `Wrappers` (`wrappers.dfy`): `Option` and `Result`.
- `Strings` (`strings.dfy`): the Python string operations the helpers use:
  - `str(n)` and `int(digits)`;
  - `in`, `str.replace`, `str.split` and `str.join`;
  - ASCII `str.upper`.
- `Utils` (`utils.dfy`): the helpers of `backend/src/agent/utils.py`.
- `Config` (`configuration.dfy`): the settings of `backend/src/agent/configuration.py`, with field defaults; the precedence environment, then `configurable`, then default; the token-limit lookup.
- `Search` (`search.dfy`): `search_web`.
- `Graph` (`graph.dfy`): the nodes and the routing decision.
- `ResearchLoop` (`loop.dfy`): the whole run.

## How the outside world is modelled

- Model calls are oracles: the fields of `Graph.Oracles`, functions of the model name and of the inputs the prompt is built from. Each returns a `Result`; an `Err` is an exception, and it aborts the run.
- The search service (HTTP request plus JSON decoding) is an oracle from the request to a response. A `Raised` response covers a network error, an error status or an undecodable body. `search_web` turns it into an empty result list.
- Fan-out is a list of `Send`s. Fan-in is the branches' updates concatenated in dispatch order.
- The loop is stated for any round and any finalization that keep the facts the graph's own nodes are proved to keep (`Round`, `FinalizeAnswer`), and `Run` instantiates it with those nodes. The same holds for the fan-in and its branches.
- The state fields the branches write are `search_query`, `web_research_result` and `sources_gathered`. They accumulate by appending. The reflection fields are overwritten each round.
- The process environment is a map. The library's conversion of an environment string into an integer field is the oracle `coerceInt`.

## Model

| member | source | states |
|---|---|---|
| Strings.NatToString | backend/src/agent/utils.py:71 | the decimal text of a number has at least one digit, only digits, and no leading zero |
| Strings.ParseNatToString | backend/src/agent/utils.py:119 | `int` of the decimal text of `n` is `n` |
| Strings.NatToStringInjective | backend/src/agent/utils.py:71 | equal decimal texts come from equal numbers, so different numbers give different markers |
| Strings.IntToStringInjective | backend/src/agent/utils.py:41 | different batch ids give different decimal texts, negative ones included |
| Strings.ContainsIffOccurs | backend/src/agent/utils.py:74 | `p in s` holds exactly when `p` occurs at some index of `s` |
| Strings.ContainsPrefixOfPattern | backend/src/agent/utils.py:74 | a text that contains a marker contains each of its prefixes, so a missing `[` and first digit rules the marker out |
| Strings.ReplaceIsJoinOfSplit | backend/src/agent/utils.py:75 | `str.replace` equals splitting at the pattern and joining with the replacement |
| Strings.ReplaceBySelf | backend/src/agent/utils.py:75 | replacing a pattern by itself leaves the text unchanged |
| Strings.SplitJoinRoundTrip | backend/src/agent/utils.py:75 | joining the pieces of a split with the separator restores the text |
| Strings.ReplaceAbsent | backend/src/agent/utils.py:74-75 | a text without the pattern is unchanged by the replace, so the `in` guard changes nothing |
| Strings.SplitPiecesAvoidSeparator | backend/src/agent/utils.py:75 | no piece of a split still contains the separator |
| Strings.JoinSplitRoundTrip | backend/src/agent/utils.py:99 | lines free of the line break, joined with it, split back into exactly those lines |
| Strings.ReplaceSkips | backend/src/agent/utils.py:75 | a stretch where no occurrence can start passes through a replace unchanged |
| Strings.ReplaceAfterSkip | backend/src/agent/utils.py:75 | after such a stretch, an occurrence is replaced in place |
| Strings.Upper | backend/src/agent/configuration.py:82 | upper-casing keeps the length, leaves no lower-case ASCII letter, keeps every other character, and sends each lower-case letter to the upper-case letter at the same place in the alphabet |
| Strings.Contains | backend/src/agent/utils.py:74 | definition of `p in s`; characterized by `ContainsIffOccurs` |
| Strings.ReplaceAll | backend/src/agent/utils.py:75 | definition of `str.replace`, left to right without overlaps; characterized by `ReplaceIsJoinOfSplit`, `ReplaceAbsent`, `ReplaceSkips` and `ReplaceAfterSkip` |
| Strings.Split | backend/src/agent/utils.py:99 | at least one piece; characterized by `SplitJoinRoundTrip`, `SplitPiecesAvoidSeparator` and `JoinSplitRoundTrip` |
| Strings.Join | backend/src/agent/utils.py:99 | definition of `sep.join`; characterized by `SplitJoinRoundTrip` and `JoinSplitRoundTrip` |
| Strings.ReplaceInserts | backend/src/agent/utils.py:75 | a text that contains the pattern contains the replacement after the replace |
| Strings.ReplaceAvoids | backend/src/agent/utils.py:75 | a replace creates no occurrence of a text `m` that the replacement does not contain and cannot overlap at its seams, unless `m` was already there; the pattern itself never survives |
| Strings.ReplaceKeeps | backend/src/agent/utils.py:75 | a replace keeps every occurrence of a text that cannot overlap an occurrence of the pattern |
| Utils.ApplyMarkers | backend/src/agent/utils.py:65-76 | processing sources `1..k` leaves a text without the markers `[1]..[k]` unchanged; the content of the result is characterized by `MarkersReplaced`, `UnmatchedMarkersStay` and `LinkSurvives` |
| Utils.InsertCitationMarkers | backend/src/agent/utils.py:46-77 | no sources, or no marker `[1]..[n]` in the text, gives the text back unchanged; for any number of sources, `NoMatchedMarkerLeft`, `UnmatchedMarkerKept` and `MatchedMarkerBecomesLink` state what the result contains |
| Utils.MarkerStep | backend/src/agent/utils.py:71-75 | definition of one loop iteration; characterized by `MarkerStepIsReplace` and `MarkerStepIsSplitJoin` |
| Utils.MarkerStepIsReplace | backend/src/agent/utils.py:74-75 | the `in` guard changes nothing: each iteration is a plain replace of `[i]` by the link of source `i` |
| Utils.LinkAvoidsMarker | backend/src/agent/utils.py:71-72 | the link of a source whose title has no brackets and is not a bare number, and whose URL has no `[`, contains no marker `[j]` |
| Utils.MarkersReplaced | backend/src/agent/utils.py:66-75 | with such sources, after processing sources `1..k` no marker `[1]..[k]` is left |
| Utils.NoMatchedMarkerLeft | backend/src/agent/utils.py:61-77 | with such sources, the result contains no marker `[i]` with `1 <= i <= n`, for any number `n` of sources |
| Utils.UnmatchedMarkersStay | backend/src/agent/utils.py:66-75 | a marker `[j]` with no source among `1..k` survives the processing of sources `1..k` |
| Utils.UnmatchedMarkerKept | backend/src/agent/utils.py:61-77 | a marker `[j]` outside `1..n` that is in the text is still in the result, for any sources |
| Utils.LinkSurvives | backend/src/agent/utils.py:66-75 | the link of source `i`, once written, survives the processing of every later source |
| Utils.MatchedMarkerBecomesLink | backend/src/agent/utils.py:61-77 | with such sources, every marker `[i]` of the text with `1 <= i <= n` is replaced: the result contains the `[title](url)` link of source `i` |
| Utils.MarkerStepIsSplitJoin | backend/src/agent/utils.py:71-75 | each step is a plain replace of `[i]` by the link, the text split at `[i]` and rejoined with the link, with no `[i]` left in any piece |
| Utils.MarkersBecomeLinks | backend/src/agent/utils.py:61-77 | in a text whose only brackets are `[1]` and `[2]`, both become the sources' `[title](url)` links in place and nothing else changes |
| Utils.FirstMarkerStep | backend/src/agent/utils.py:71-75 | the step for source 1 turns `[1]` into its link and leaves the `[2]` after it alone |
| Utils.SecondMarkerStep | backend/src/agent/utils.py:71-75 | the step for source 2 turns `[2]` into its link and leaves the earlier link alone |
| Utils.UnmatchedMarkerStaysLiteral | backend/src/agent/utils.py:66-77 | with two sources, `See [3].` keeps its `[3]` literally |
| Utils.FormatSourcesForCitation | backend/src/agent/utils.py:80-99 | empty input gives `""`; otherwise, with single-line titles and URLs, splitting at line breaks gives exactly one `[i] [title](url)` line per source, in order, with defaults `Source i` and `#` |
| Utils.DigitRunEnd | backend/src/agent/utils.py:115 | the run of `\d` starting at `i` is maximal: digits up to `j`, a non-digit or the end at `j` |
| Utils.NoMatchInsideMatch | backend/src/agent/utils.py:115-116 | no `[digits]` match starts inside another, so resuming after a match loses nothing |
| Utils.MatchAt | backend/src/agent/utils.py:115-116 | a match ends after its start and within the text; characterized by `DigitRunEnd` and `FindAllFindsEverything` |
| Utils.FindAll | backend/src/agent/utils.py:115-116 | definition of the left-to-right scan; characterized by `FindAllFindsEverything` |
| Utils.FindAllFindsEverything | backend/src/agent/utils.py:115-116 | the left-to-right scan finds the value of every `[digits]` occurrence, and nothing else |
| Utils.InsertSorted | backend/src/agent/utils.py:119 | inserting into a strictly increasing list keeps it strictly increasing, with exactly the old elements plus the new one |
| Utils.SortedUnique | backend/src/agent/utils.py:119 | `sorted(set(xs))` is strictly increasing with exactly the elements of `xs` |
| Utils.ExtractNumberedCitations | backend/src/agent/utils.py:102-119 | the result is strictly increasing (sorted, no duplicates), and a value is in it exactly when some `[digits]` of the text has that value |
| Utils.StrictlyIncreasingUnique | backend/src/agent/utils.py:119 | two strictly increasing lists with the same elements are equal, so the contract above determines the result |
| Utils.CreateCitationMapping | backend/src/agent/utils.py:122-140 | the keys are exactly `1..n`, and key `i` holds source `i`'s title, URL and snippet with the defaults `Source i`, `#` and `""` |
| Utils.CitationHelpersAgree | backend/src/agent/utils.py:94-97 | the formatted line, the replacing link and the mapping entry show the same title and URL for source `i` |
| Utils.ShortUrlInjective | backend/src/agent/utils.py:41 | within one batch, different indices give different short URLs |
| Utils.ShortUrlsUpTo | backend/src/agent/utils.py:37-42 | definition of the map after the first `n` sources; characterized by `ShortUrlsKeys`, `ShortUrlsFirst` and `ShortUrlsInjective` |
| Utils.CreateShortUrls | backend/src/agent/utils.py:22-43 | the keys are exactly the distinct non-empty URLs; each maps to the short URL of its first occurrence's index; distinct URLs get distinct short URLs |
| Utils.ShortUrlsKeys | backend/src/agent/utils.py:34-42 | after any prefix of the sources, the keys are the distinct non-empty URLs of that prefix |
| Utils.ShortUrlsFirst | backend/src/agent/utils.py:37-42 | the first source with a URL names its short URL and later duplicates never overwrite it |
| Utils.ShortUrlsInjective | backend/src/agent/utils.py:41 | distinct URLs are mapped to distinct short URLs |
| Utils.TranscriptAppend | backend/src/agent/utils.py:14-18 | the transcript of a concatenated history is the concatenation of the transcripts |
| Utils.TranscriptSkipsOthers | backend/src/agent/utils.py:14-18 | messages other than user and assistant messages contribute nothing |
| Utils.GetResearchTopic | backend/src/agent/utils.py:5-19 | one message gives its content, whatever its kind; any other history gives the `User:`/`Assistant:` transcript of its chat messages, empty for an empty history |
| Config.RawValues | backend/src/agent/configuration.py:76-87 | a field has a raw value exactly when the environment variable `NAME` or a non-None `configurable` value exists; the environment wins; None values are dropped |
| Config.Validate | backend/src/agent/configuration.py:89 | an accepted value has its field's kind; None is rejected |
| Config.FieldValue | backend/src/agent/configuration.py:89 | the value a field takes has the field's kind; characterized by `Build` |
| Config.Build | backend/src/agent/configuration.py:89 | construction succeeds exactly when every field's value (or default) validates, and then each field holds it |
| Config.FromRunnableConfig | backend/src/agent/configuration.py:71-89 | it succeeds exactly when every effective value validates; each field then holds its effective value, or its declared default when it has none |
| Config.DefaultsWhenUnset | backend/src/agent/configuration.py:11-69 | with nothing set anywhere, the result is the declared defaults |
| Config.OnlyEnvironmentWithoutConfigurable | backend/src/agent/configuration.py:76-78 | without a config or its `configurable` key, only environment variables override defaults |
| Config.MaxLoopsEnvironmentName | backend/src/agent/configuration.py:82 | the loop budget's environment variable is `MAX_RESEARCH_LOOPS` |
| Config.MaxResearchLoopsResolution | backend/src/agent/configuration.py:76-89 | the budget is the coerced `MAX_RESEARCH_LOOPS` if set, else an integer `max_research_loops` of the config, else 2 |
| Config.GetModelMaxTokens | backend/src/agent/configuration.py:91-93 | the table entry for the model, else 4096 |
| Config.DefaultTokenLimits | backend/src/agent/configuration.py:60-69 | with the default table, `gpt-4o` gets 8192 and every other model 4096 |
| Search.BuildRequest | backend/src/agent/graph.py:38-43 | Google engine, the query, and `min(n, 10)` results |
| Search.PyPrefix | backend/src/agent/graph.py:53 | Python's `s[:n]`, with a negative `n` counting from the end |
| Search.ShapeAll | backend/src/agent/graph.py:53-58 | when every entry is a dictionary, one record per entry in order, its title, url (from `link`) and snippet being the entry's, `""` when missing; a non-dictionary entry makes the step yield nothing |
| Search.ShapeResponse | backend/src/agent/graph.py:48-64 | nothing for a raised call or a missing `organic_results`; at most `n` records; when the first `n` entries are all dictionaries, exactly those entries in order, each record's title, url (from `link`) and snippet being the entry's, `""` when missing; when one is not a dictionary, nothing |
| Search.SearchWeb | backend/src/agent/graph.py:33-64 | never fails and returns at most `num_results` records; nothing when the request raises or the body lacks `organic_results`; otherwise the first `num_results` entries of the response, shaped in order with `""` defaults, or nothing when one of them is not a dictionary |
| Graph.Dispatch | backend/src/agent/graph.py:206-215 | one `Send` per query, in order, with consecutive ids from the first |
| Graph.ContinueToWebResearch | backend/src/agent/graph.py:94-99 | one dispatch per query, in order, with ids `0..n-1` |
| Graph.GenerateQuery | backend/src/agent/graph.py:68-91 | raises with no messages; otherwise the model's answer when asked, with the configured generator model and the last message, for the state's `initial_search_query_count`, or the configured count when the state has none |
| Graph.AsSourceInfos | backend/src/agent/graph.py:117-126 | every key is set, so no default of the citation helpers applies: at any position, source `i` shows record `i`'s title and URL and carries its snippet |
| Graph.WebResearch | backend/src/agent/graph.py:102-164 | no results give the placeholder finding and no sources; otherwise the sources are exactly the results, the finding is the analysis with markers linked, and a failed analysis is not caught |
| Graph.BranchGathersResults | backend/src/agent/graph.py:107-164 | a branch that completes returns as its sources exactly the search results for its query, none when the search found nothing |
| Graph.BatchGathersResults | backend/src/agent/graph.py:107-164 | the sources of the branches of a batch are the search results of its queries, in dispatch order |
| Graph.FindingOf | backend/src/agent/graph.py:158-164 | a branch that completes reports exactly one finding, this one |
| Graph.BatchFindings | backend/src/agent/graph.py:158-164 | the finding of each dispatched query, in dispatch order |
| Graph.FanIn | backend/src/agent/graph.py:261-262 | for any branch that reports its own query and one finding: the fan-in fails exactly when a branch fails, and otherwise holds one query and one finding per dispatch, the `i`-th from the `i`-th branch, and the sources of all branches concatenated in dispatch order |
| Graph.RunBatch | backend/src/agent/graph.py:261-262 | the fan-in of the `web_research` branches fails exactly when a branch fails, and otherwise holds one query per dispatch, the findings of the dispatched queries in dispatch order, and as sources their search results concatenated in dispatch order |
| Graph.ReflectionNode | backend/src/agent/graph.py:167-194 | the counter goes up by exactly one; the ran-queries count is the length of `search_query`; the verdict is the model's, asked of the state's reasoning model or the configured one |
| Graph.EffectiveBudget | backend/src/agent/graph.py:200 | the state's budget unless missing or 0, else the configured one |
| Graph.EvaluateResearch | backend/src/agent/graph.py:197-215 | finalize exactly when sufficient or the counter reaches the budget; otherwise one dispatch per follow-up, in order, ids counting on from the ran-queries count |
| Graph.FlattenAppend | backend/src/agent/graph.py:239-244 | flattening gathered sources keeps their order across concatenation |
| Graph.FlattenSingles | backend/src/agent/graph.py:239-244 | flattening single entries returns them unchanged, duplicates included |
| Graph.FlattenSources | backend/src/agent/graph.py:239-244 | definition of the flattening; characterized by `FlattenAppend` and `FlattenSingles` |
| Graph.Absorb | backend/src/agent/graph.py:160-164 | definition of appending a batch's update to the three lists; characterized by `ResearchLoop.Round` |
| Graph.FinalizeAnswer | backend/src/agent/graph.py:218-249 | the answer is the model's, asked of the non-empty reasoning model or the answer model; the sources are the gathered ones flattened |
| ResearchLoop.Round | backend/src/agent/graph.py:160-215 | one round: the counter rises by one; the dispatched queries and the batch's findings are appended in order to `search_query` and `web_research_result`; `sources_gathered` becomes the old list followed by the search results of the dispatched queries, in dispatch order; it routes to finalize exactly when the verdict is sufficient or the counter reaches the budget, and otherwise dispatches the follow-ups with ids counting on from the length of `search_query` |
| ResearchLoop.GraphStepsBehave | backend/src/agent/graph.py:160-249 | the graph's round keeps the facts above, list contents included, with each query contributing its search results and its branch's finding to the batch; its finalization returns the gathered sources flattened |
| ResearchLoop.NextBatchIds | backend/src/agent/graph.py:193-211 | follow-up ids continue strictly above every id dispatched so far |
| ResearchLoop.RoundUsesBudget | backend/src/agent/graph.py:170-203 | a round that routes back to research uses one round of the budget |
| ResearchLoop.Loop | backend/src/agent/graph.py:262-264 | for any round keeping those facts, unless a step fails: one to `max(1, budget - count)` rounds; the counter rises by the rounds run; earlier dispatches keep their places; ids strictly increase; one finding per dispatch; an answer carries the flattened sources. What the rounds append to the lists is `LoopLists` |
| ResearchLoop.LoopLists | backend/src/agent/graph.py:160-164 | over the whole loop, `search_query` grows by exactly the dispatched queries in dispatch order; when each query contributes a fixed finding and fixed sources to its batch, the findings grow by the finding of each dispatched query and the gathered sources by their sources, in dispatch order, across all rounds |
| ResearchLoop.LoopQueries | backend/src/agent/graph.py:160-164 | over the whole loop, `search_query` grows by exactly the dispatched queries in dispatch order, and the findings and sources present on entry stay in front |
| ResearchLoop.LoopAppends | backend/src/agent/graph.py:160-164 | for one choice of what each query contributes to its batch, the findings grow by the finding of each dispatched query and the gathered sources by their sources, in dispatch order, across all rounds |
| ResearchLoop.FlattenPrefix | backend/src/agent/graph.py:239-244 | flattening a prefix of the gathered sources gives a prefix of the flattened sources |
| ResearchLoop.Launch | backend/src/agent/graph.py:261-264 | the queries already in the state are dispatched first with ids `0..n-1`, then the loop runs; `search_query` ends as the state's queries followed by every dispatched query; the findings and sources grow by those of every dispatched query, in dispatch order, when each query contributes fixed ones; no queries means no round |
| ResearchLoop.GraphLaunchContents | backend/src/agent/graph.py:160-164 | with the graph's own steps, the findings grow by each dispatched query's finding and the gathered sources by its search results, in dispatch order, and an answer's sources are the earlier ones flattened followed by those results |
| ResearchLoop.Run | backend/src/agent/graph.py:260-264 | unless a model call fails: at most `max(1, budget)` rounds; the generated queries are dispatched first with ids `0..n-1`; ids strictly increase; `search_query` ends as the input's queries, the generated ones, then every dispatched query; the findings are the input's followed by each dispatched query's finding, and the gathered sources the input's followed by each dispatched query's search results, in dispatch order; an answer's sources are the input's flattened followed by those results; no queries means no round |
| ResearchLoop.LoopExhaustsBudget | backend/src/agent/graph.py:197-203 | never-sufficient verdicts with follow-ups use exactly the whole budget, then finalize |
| ResearchLoop.SufficientFinalizesAtOnce | backend/src/agent/graph.py:202-203 | a sufficient verdict finalizes in its own round, whatever the budget left |
| ResearchLoop.EmptyFollowUpsHalt | backend/src/agent/graph.py:202-215 | an insufficient verdict without follow-ups, with budget left, ends the run without an answer |
| ResearchLoop.GraphRoundCompletes | backend/src/agent/graph.py:167-249 | when every model call returns, a round and finalization on a non-empty conversation complete, and the round's verdict is the reflection model's |
| ResearchLoop.GraphScenarios | backend/src/agent/graph.py:167-249 | the oracle scenarios (always, never or emptily satisfied) hold of the graph's round and finalization |
| ResearchLoop.LaunchExhaustsBudget | backend/src/agent/graph.py:197-203 | a launch that is never satisfied answers after exactly `max(1, budget - count)` rounds |
| ResearchLoop.LaunchSufficient | backend/src/agent/graph.py:202-203 | a launch whose first verdict is sufficient answers after one round |
| ResearchLoop.LaunchHalts | backend/src/agent/graph.py:202-215 | a launch whose first verdict is insufficient without follow-ups, with budget left, ends after one round with no answer |
| ResearchLoop.BudgetExhaustionScenario | backend/src/agent/graph.py:170-203 | a fresh run that is never satisfied answers after exactly `max(1, budget)` rounds |
| ResearchLoop.DefaultBudgetIsTwoRounds | backend/src/agent/configuration.py:46-51 | with the default configuration, a never-satisfied run answers after exactly two rounds |
| ResearchLoop.SufficientScenario | backend/src/agent/graph.py:260-264 | a fresh run whose first verdict is sufficient answers after one round |
| ResearchLoop.EmptyFollowUpsScenario | backend/src/agent/graph.py:202-215 | a fresh run whose first verdict is insufficient without follow-ups, with a budget above one, ends after one round with no answer |

## Behaviour of the code worth knowing

- Follow-up ids. `evaluate_research` numbers follow-ups from `number_of_ran_queries`, the length of `search_query` (graph.py:193, 206-211). That list holds the generated queries plus one entry per branch, so after the first round follow-up ids start at twice the number of initial queries. The ids are only carried in the `Send`; no branch reads them. `Loop` proves they still strictly increase.
- Empty follow-ups. An insufficient verdict with no follow-up queries and budget left makes `evaluate_research` return an empty list of `Send`s (graph.py:205-215). The graph then ends with no answer (`Halted`, see `EmptyFollowUpsHalt`); it does not finalize.
- Rounds versus budget. Reflection runs before the budget is compared (graph.py:170, 202), so a budget below 1 still allows one round: the bound is `max(1, budget)`.
- No deduplication. `finalize_answer` flattens the gathered sources and keeps duplicate URLs (graph.py:239-244, `FlattenSingles`).
- Branch failures. A failing analysis call in `web_research` is not caught (graph.py:147-158), so it fails the whole run. Only `search_web` turns an exception into "no results" (graph.py:62-64).
- Analysis model and result count. `web_research` uses `query_generator_model` for the analysis and always asks `search_web` for 8 results. `search_model` and `search_results_per_query` are read by nothing.

## Left out

- HTTP, JSON decoding, the API-key checks at import time and the logging of search errors: replaced by the search oracle, or irrelevant to the results.
- Prompt texts, the current date, model temperature and retries: model calls are oracles of their essential inputs.
- LangGraph's scheduling and concurrency: the branches of one batch run one after another, and their updates are appended in dispatch order.
- The state schema file is not part of this model. The append behaviour of the three branch-written lists is assumed.
- Finalize's returned `messages` and `sources_gathered` update: under the append behaviour this would append the flattened sources to the stored list again. The model returns the answer and sources in `Answered` and does not merge them back.
- A state key present with value None is the same as a missing key (`Option.None`). In the source, `get(key, default)` would return None there, and `+ 1` on a None loop counter would raise.
- A `configurable` key holding None is treated as no configurable values; the source would raise on `.get`.
- Pydantic's coercions beyond text-to-integer (`coerceInt`) are not modelled. Booleans, floats and JSON text for the token table are rejected.
- `search_web`: an `organic_results` value that is not a list is not modelled.
- Search.Shape: an entry whose `title`, `link` or `snippet` key is present with value None yields None in the record (`get` returns the stored None); the model reads such a key as missing and yields `""`.
- Utils.TitleOf: a source whose `title` is stored as None is rendered `[None](...)` by `insert_citation_markers` and `format_sources_for_citation`; the model reads it as missing and uses the default.
- Utils.UrlOf: a source whose `url` is stored as None is rendered `(None)` in the link; the model reads it as missing and uses the default.
- Utils.NoMatchedMarkerLeft: stated for sources whose titles contain no `[` or `]` and are not bare numbers, and whose URLs contain no `[`; other titles and URLs can form a marker inside an inserted link (a title `2` makes the link of source 1 begin with `[2]`, and so does a title `2]x`), and that marker is then replaced by a later step.
- Utils.MatchedMarkerBecomesLink: stated under the same premise on titles and URLs, since a later step would replace a marker formed inside the link and so break it.
- Utils.LinkAvoidsMarker: stated under the same premise; a title `2` or `2]x` gives a link that contains `[2]`.
- Utils.MarkersReplaced: stated under the same premise, for the same reason as `NoMatchedMarkerLeft`.
- Strings.IsDigit: `\d` is read as ASCII digits only, not every Unicode decimal digit.
- Strings.Upper: only ASCII letters are upper-cased, which covers every field name.
- The legacy aliases `resolve_urls` and `get_citations`, the command-line scripts and the compiled-graph object: not part of the core logic.

=== FILE: configuration.dfy ===
/** The agent's configuration (`configuration.py`): eight fields with
    declared defaults, resolved from the process environment first, then
    from the `configurable` part of the run configuration, then from the
    default; plus the per-model token-limit lookup. The environment is an
    explicit map, and the library's conversion of an environment string into
    an integer field is the parameter `coerceInt`. */
module Config {
  import opened Wrappers
  import opened Strings

  /** A raw value as it reaches the configuration: environment values are
      always text; `configurable` values may be of any type, including None. */
  datatype Value = Text(s: string) | Number(n: int) | Table(t: map<string, int>) | Null

  /** A run configuration; `configurable` is `None` when the key is missing. */
  datatype RunnableConfig = RunnableConfig(configurable: Option<map<string, Value>>)

  datatype Configuration = Configuration(
    queryGeneratorModel: string,
    reflectionModel: string,
    answerModel: string,
    searchModel: string,
    numberOfInitialQueries: int,
    maxResearchLoops: int,
    searchResultsPerQuery: int,
    maxTokensPerModel: map<string, int>)

  /** The declared field names, in declaration order. */
  const FieldNames: seq<string> := [
    "query_generator_model", "reflection_model", "answer_model", "search_model",
    "number_of_initial_queries", "max_research_loops", "search_results_per_query",
    "max_tokens_per_model"]

  const DefaultTokenTable: map<string, int> := map["gpt-4o-mini" := 4096, "gpt-4o" := 8192, "gpt-3.5-turbo" := 4096]

  /** The declared field defaults. */
  const Defaults: Configuration := Configuration(
    "gpt-4o-mini", "gpt-4o-mini", "gpt-4o", "gpt-4o-mini", 3, 2, 8, DefaultTokenTable)

  /** The token limit assumed for a model missing from the table. */
  const FallbackMaxTokens: int := 4096

  datatype Kind = TextField | IntField | TableField

  /** The kind of the field at position `i` of `FieldNames`. */
  function KindAt(i: nat): Kind {
    if 4 <= i <= 6 then IntField else if i == 7 then TableField else TextField
  }

  /** The field at position `i` of `FieldNames`, as a raw value. */
  function GetAt(cfg: Configuration, i: nat): Value {
    match i
    case 0 => Text(cfg.queryGeneratorModel)
    case 1 => Text(cfg.reflectionModel)
    case 2 => Text(cfg.answerModel)
    case 3 => Text(cfg.searchModel)
    case 4 => Number(cfg.numberOfInitialQueries)
    case 5 => Number(cfg.maxResearchLoops)
    case 6 => Number(cfg.searchResultsPerQuery)
    case 7 => Table(cfg.maxTokensPerModel)
    case _ => Null
  }

  /** The `configurable` dictionary of a run configuration; a missing
      configuration or a missing key contributes nothing. */
  function Configurable(config: Option<RunnableConfig>): map<string, Value> {
    if config.Some? && config.value.configurable.Some? then config.value.configurable.value else map[]
  }

  /** `os.environ.get(NAME, configurable.get(name))`. */
  function RawValue(name: string, env: map<string, string>, configurable: map<string, Value>): Value {
    var envName := Upper(name);
    if envName in env then Text(env[envName])
    else if name in configurable then configurable[name]
    else Null
  }

  /** The value the source hands to the constructor for `name`, as a
      reference definition: the environment wins; otherwise a non-None
      `configurable` value; otherwise nothing, and the default applies. */
  ghost function Effective(name: string, config: Option<RunnableConfig>, env: map<string, string>): Option<Value> {
    if Upper(name) in env then Some(Text(env[Upper(name)]))
    else if name in Configurable(config) && Configurable(config)[name] != Null then Some(Configurable(config)[name])
    else None
  }

  /** The raw values of all fields with the None values filtered out: a
      field has an entry exactly when the environment or the configuration
      gives it a value, and the environment takes precedence. */
  function RawValues(config: Option<RunnableConfig>, env: map<string, string>): (values: map<string, Value>)
    ensures forall name :: name in values ==> name in FieldNames && values[name] != Null
    ensures forall name :: name in FieldNames ==>
      (name in values <==> Effective(name, config, env).Some?) &&
      (name in values ==> values[name] == Effective(name, config, env).value)
  {
    var configurable := Configurable(config);
    map name | name in FieldNames && RawValue(name, env, configurable) != Null :: RawValue(name, env, configurable)
  }

  /** Validation of a raw value against the kind of its field; `None` is a
      validation error. A text field takes text, an integer field takes an
      integer or text that `coerceInt` accepts, the table takes a table. */
  function Validate(kind: Kind, v: Value, coerceInt: string -> Option<int>): (r: Option<Value>)
    ensures r.Some? ==> match kind
      case TextField => r.value.Text?
      case IntField => r.value.Number?
      case TableField => r.value.Table?
    ensures v.Null? ==> r.None?
  {
    match (kind, v)
    case (TextField, Text(_)) => Some(v)
    case (IntField, Number(_)) => Some(v)
    case (IntField, Text(s)) => (match coerceInt(s) case Some(n) => Some(Number(n)) case None => None)
    case (TableField, Table(_)) => Some(v)
    case _ => None
  }

  /** The value field `i` takes: its validated raw value when it has one,
      its default otherwise. */
  function FieldValue(i: nat, values: map<string, Value>, coerceInt: string -> Option<int>): (r: Option<Value>)
    requires i < |FieldNames|
    ensures r.Some? ==> match KindAt(i)
      case TextField => r.value.Text?
      case IntField => r.value.Number?
      case TableField => r.value.Table?
  {
    if FieldNames[i] in values then Validate(KindAt(i), values[FieldNames[i]], coerceInt) else Some(GetAt(Defaults, i))
  }

  /** Building the configuration from the filtered values (`cls(**values)`):
      it succeeds exactly when every field has a valid value, and then every
      field holds that value. */
  function Build(values: map<string, Value>, coerceInt: string -> Option<int>): (r: Result<Configuration>)
    ensures r.Ok? <==> forall i :: 0 <= i < |FieldNames| ==> FieldValue(i, values, coerceInt).Some?
    ensures r.Ok? ==> forall i :: 0 <= i < |FieldNames| ==> GetAt(r.value, i) == FieldValue(i, values, coerceInt).value
  {
    var q := FieldValue(0, values, coerceInt);
    var rf := FieldValue(1, values, coerceInt);
    var a := FieldValue(2, values, coerceInt);
    var sm := FieldValue(3, values, coerceInt);
    var ni := FieldValue(4, values, coerceInt);
    var ml := FieldValue(5, values, coerceInt);
    var rp := FieldValue(6, values, coerceInt);
    var mt := FieldValue(7, values, coerceInt);
    if q.Some? && rf.Some? && a.Some? && sm.Some? && ni.Some? && ml.Some? && rp.Some? && mt.Some? then
      Ok(Configuration(q.value.s, rf.value.s, a.value.s, sm.value.s, ni.value.n, ml.value.n, rp.value.n, mt.value.t))
    else Err("validation error for Configuration")
  }

  /** The value field `i` receives: the validated effective value, or the
      declared default when there is none. */
  ghost function Expected(i: nat, config: Option<RunnableConfig>, env: map<string, string>,
                          coerceInt: string -> Option<int>): Option<Value>
    requires i < |FieldNames|
  {
    var e := Effective(FieldNames[i], config, env);
    if e.Some? then Validate(KindAt(i), e.value, coerceInt) else Some(GetAt(Defaults, i))
  }

  /** `Configuration.from_runnable_config`: every field takes its effective
      value (environment, then configuration, then nothing), validated, or its
      declared default when it has none; construction fails exactly when some
      effective value does not validate. */
  function FromRunnableConfig(config: Option<RunnableConfig>, env: map<string, string>,
                              coerceInt: string -> Option<int>): (r: Result<Configuration>)
    ensures r.Ok? <==> forall i :: 0 <= i < |FieldNames| ==> Expected(i, config, env, coerceInt).Some?
    ensures r.Ok? ==> forall i :: 0 <= i < |FieldNames| ==> GetAt(r.value, i) == Expected(i, config, env, coerceInt).value
  {
    var values := RawValues(config, env);
    assert forall i :: 0 <= i < |FieldNames| ==> FieldValue(i, values, coerceInt) == Expected(i, config, env, coerceInt);
    Build(values, coerceInt)
  }

  /** With neither an environment variable nor a configuration value for
      any field, every field has its declared default. */
  lemma DefaultsWhenUnset(config: Option<RunnableConfig>, env: map<string, string>, coerceInt: string -> Option<int>)
    requires forall i :: 0 <= i < |FieldNames| ==> Effective(FieldNames[i], config, env).None?
    ensures FromRunnableConfig(config, env, coerceInt) == Ok(Defaults)
  {
    var r := FromRunnableConfig(config, env, coerceInt);
    assert r.Ok?;
    var c := r.value;
    assert GetAt(c, 0) == GetAt(Defaults, 0);
    assert GetAt(c, 1) == GetAt(Defaults, 1);
    assert GetAt(c, 2) == GetAt(Defaults, 2);
    assert GetAt(c, 3) == GetAt(Defaults, 3);
    assert GetAt(c, 4) == GetAt(Defaults, 4);
    assert GetAt(c, 5) == GetAt(Defaults, 5);
    assert GetAt(c, 6) == GetAt(Defaults, 6);
    assert GetAt(c, 7) == GetAt(Defaults, 7);
  }

  /** A missing configuration, or one without `configurable`, contributes
      nothing: only the environment can override a default. */
  lemma OnlyEnvironmentWithoutConfigurable(config: Option<RunnableConfig>, env: map<string, string>, name: string)
    requires config.None? || config.value.configurable.None?
    ensures Effective(name, config, env).Some? <==> Upper(name) in env
  {
  }

  /** The environment variable for the loop budget is `MAX_RESEARCH_LOOPS`. */
  lemma MaxLoopsEnvironmentName()
    ensures Upper("max_research_loops") == "MAX_RESEARCH_LOOPS"
  {
  }

  /** The loop budget: the environment variable `MAX_RESEARCH_LOOPS` when
      set, else a non-None `max_research_loops` of the configuration, else 2. */
  lemma MaxResearchLoopsResolution(config: Option<RunnableConfig>, env: map<string, string>,
                                   coerceInt: string -> Option<int>)
    requires FromRunnableConfig(config, env, coerceInt).Ok?
    ensures var c := FromRunnableConfig(config, env, coerceInt).value;
      && ("MAX_RESEARCH_LOOPS" in env ==> Some(c.maxResearchLoops) == coerceInt(env["MAX_RESEARCH_LOOPS"]))
      && ("MAX_RESEARCH_LOOPS" !in env && "max_research_loops" in Configurable(config) &&
          Configurable(config)["max_research_loops"].Number? ==>
            c.maxResearchLoops == Configurable(config)["max_research_loops"].n)
      && ("MAX_RESEARCH_LOOPS" !in env &&
          ("max_research_loops" !in Configurable(config) || Configurable(config)["max_research_loops"] == Null) ==>
            c.maxResearchLoops == 2)
  {
    MaxLoopsEnvironmentName();
    var c := FromRunnableConfig(config, env, coerceInt).value;
    assert FieldNames[5] == "max_research_loops";
    assert GetAt(c, 5) == Expected(5, config, env, coerceInt).value;
  }

  /** The token limit of a model: its table entry, or 4096 when the model is
      not in the table. */
  function GetModelMaxTokens(cfg: Configuration, modelName: string): (n: int)
    ensures modelName in cfg.maxTokensPerModel ==> n == cfg.maxTokensPerModel[modelName]
    ensures modelName !in cfg.maxTokensPerModel ==> n == FallbackMaxTokens
  {
    if modelName in cfg.maxTokensPerModel then cfg.maxTokensPerModel[modelName] else FallbackMaxTokens
  }

  /** With the default table, `gpt-4o` gets 8192 tokens and every other model
      4096. */
  lemma DefaultTokenLimits(modelName: string)
    ensures GetModelMaxTokens(Defaults, modelName) == (if modelName == "gpt-4o" then 8192 else 4096)
  {
  }
}

=== FILE: graph.dfy ===
/** The research loop of the agent (`graph.py`): query generation, one
    web-research branch per query, reflection, the routing decision that
    either finalizes or dispatches follow-up queries, and finalization.

    The language model and the search service are uninterpreted functions
    bundled in `Oracles`; an `Err` from a model call is the exception that
    aborts the run. Fan-out is a list of `Send`s and fan-in is sequential
    concatenation in dispatch order; the list-valued state fields that the
    branches write (`search_query`, `web_research_result`,
    `sources_gathered`) accumulate by appending. */
module Graph {
  import opened Wrappers
  import opened Strings
  import opened Utils
  import opened Config
  import opened Search

  /** The reflection model's structured answer. */
  datatype Verdict = Verdict(isSufficient: bool, knowledgeGap: string, followUpQueries: seq<string>)

  /** The capabilities the loop calls, as functions of the model name and of
      the inputs each prompt is built from. */
  datatype Oracles = Oracles(
    search: SearchRequest -> SearchResponse,
    // model, research topic, number of queries requested
    writeQueries: (string, string, int) -> Result<seq<string>>,
    // model, query, search results
    analyse: (string, string, seq<SearchRecord>) -> Result<string>,
    // model, research topic, joined summaries
    reflect: (string, string, string) -> Result<Verdict>,
    // model, research topic, joined summaries
    answer: (string, string, string) -> Result<string>)

  /** An entry of `sources_gathered`: a single source, or a list of them. */
  datatype Gathered = One(record: SearchRecord) | Many(records: seq<SearchRecord>)

  /** The graph state; `None` is a key that is absent (or None). */
  datatype OverallState = OverallState(
    messages: seq<Message>,
    searchQuery: seq<string>,
    webResearchResult: seq<string>,
    sourcesGathered: seq<Gathered>,
    initialSearchQueryCount: Option<int>,
    maxResearchLoops: Option<int>,
    researchLoopCount: Option<int>,
    reasoningModel: Option<string>)

  /** A dispatch of one web-research branch. */
  datatype Send = Send(searchQuery: string, id: int)

  /** The update one web-research branch returns. */
  datatype ResearchUpdate = ResearchUpdate(
    sourcesGathered: seq<SearchRecord>, searchQuery: seq<string>, webResearchResult: seq<string>)

  /** The update the reflection step returns. */
  datatype ReflectionState = ReflectionState(
    isSufficient: bool, knowledgeGap: string, followUpQueries: seq<string>,
    researchLoopCount: int, numberOfRanQueries: nat)

  /** Where the routing decision sends the run next. */
  datatype Route = ToFinalize | ToWebResearch(sends: seq<Send>)

  /** The update the finalization step returns. */
  datatype FinalUpdate = FinalUpdate(answer: string, sources: seq<SearchRecord>)

  /** How a run ends: with an answer; with no step left to run (an empty
      dispatch list); or with an exception from a model call. `rounds`
      counts reflection steps, `dispatched` every `Send` in order. */
  datatype RunOutcome =
    | Answered(state: OverallState, answer: string, sources: seq<SearchRecord>, rounds: nat, dispatched: seq<Send>)
    | Halted(state: OverallState, rounds: nat, dispatched: seq<Send>)
    | Failed(error: string)

  const IndexError: string := "list index out of range"

  /** The number of results each branch asks the search for. */
  const ResultsPerQuery: int := 8

  // ---------------------------------------------------------------------
  // Fan-out
  // ---------------------------------------------------------------------

  /** One `Send` per query, in order, with ids `first, first + 1, ...`. */
  function Dispatch(queries: seq<string>, first: int): (sends: seq<Send>)
    ensures |sends| == |queries|
    ensures forall i :: 0 <= i < |queries| ==> sends[i] == Send(queries[i], first + i)
    decreases |queries|
  {
    if |queries| == 0 then [] else [Send(queries[0], first)] + Dispatch(queries[1..], first + 1)
  }

  /** The queries of a batch of dispatches, in order. */
  function QueriesOf(sends: seq<Send>): (qs: seq<string>)
    ensures |qs| == |sends|
    ensures forall i :: 0 <= i < |sends| ==> qs[i] == sends[i].searchQuery
  {
    seq(|sends|, i requires 0 <= i < |sends| => sends[i].searchQuery)
  }

  /** What `f` gives for each dispatched query, in dispatch order. */
  function QueryMap<T>(sends: seq<Send>, f: string -> T): (xs: seq<T>)
    ensures |xs| == |sends|
    ensures forall i :: 0 <= i < |sends| ==> xs[i] == f(sends[i].searchQuery)
  {
    seq(|sends|, i requires 0 <= i < |sends| => f(sends[i].searchQuery))
  }

  /** Mapping two batches one after the other. */
  lemma QueryMapAppend<T>(a: seq<Send>, b: seq<Send>, f: string -> T)
    ensures QueryMap(a + b, f) == QueryMap(a, f) + QueryMap(b, f)
  {
    assert forall i :: 0 <= i < |a + b| ==> QueryMap(a + b, f)[i] == (QueryMap(a, f) + QueryMap(b, f))[i];
  }

  /** The initial fan-out: one dispatch per query, in order, with the ids
      `0..n-1`. */
  function ContinueToWebResearch(searchQuery: seq<string>): (sends: seq<Send>)
    ensures |sends| == |searchQuery|
    ensures forall i :: 0 <= i < |searchQuery| ==> sends[i] == Send(searchQuery[i], i)
  {
    Dispatch(searchQuery, 0)
  }

  // ---------------------------------------------------------------------
  // Nodes
  // ---------------------------------------------------------------------

  /** Query generation: the model is asked for `initial_search_query_count`
      queries (the configured number when the state has none) about the
      last message; with no message at all the step raises. */
  function GenerateQuery(state: OverallState, cfg: Configuration, o: Oracles): (r: Result<seq<string>>)
    ensures |state.messages| == 0 ==> r.Err?
    ensures |state.messages| > 0 && state.initialSearchQueryCount.None? ==>
      r == o.writeQueries(cfg.queryGeneratorModel, state.messages[|state.messages| - 1].content, cfg.numberOfInitialQueries)
    ensures |state.messages| > 0 && state.initialSearchQueryCount.Some? ==>
      r == o.writeQueries(cfg.queryGeneratorModel, state.messages[|state.messages| - 1].content, state.initialSearchQueryCount.value)
  {
    if |state.messages| == 0 then Err(IndexError)
    else
      var count := state.initialSearchQueryCount.GetOr(cfg.numberOfInitialQueries);
      o.writeQueries(cfg.queryGeneratorModel, state.messages[|state.messages| - 1].content, count)
  }

  function NoResultsText(query: string): string {
    "No search results found for: " + query
  }

  /** The search records as the citation helpers see them. All three keys
      are set, so no default of the helpers ever applies: whatever its
      position, each source shows its record's title and URL, and carries
      its snippet. */
  function AsSourceInfos(records: seq<SearchRecord>): (infos: seq<SourceInfo>)
    ensures |infos| == |records|
    ensures forall i, k: nat :: 0 <= i < |records| ==>
      TitleOf(infos[i], k) == records[i].title && UrlOf(infos[i]) == records[i].url
    ensures forall i :: 0 <= i < |records| ==>
      infos[i].title.Some? && infos[i].url.Some? && infos[i].snippet == Some(records[i].snippet)
  {
    var infos := seq(|records|, i requires 0 <= i < |records| =>
      SourceInfo(Some(records[i].title), Some(records[i].url), Some(records[i].snippet)));
    assert forall i :: 0 <= i < |records| ==>
      infos[i] == SourceInfo(Some(records[i].title), Some(records[i].url), Some(records[i].snippet));
    infos
  }

  /** One web-research branch. With no search results it yields no sources
      and the placeholder finding; otherwise its sources are exactly the
      search results, in order, and its finding is the model's analysis with
      the `[i]` markers turned into links. A failing model call is not
      caught. */
  function WebResearch(query: string, cfg: Configuration, o: Oracles): (r: Result<ResearchUpdate>)
    ensures r.Ok? ==> r.value.searchQuery == [query] && |r.value.webResearchResult| == 1
    ensures SearchWeb(query, ResultsPerQuery, o.search) == [] ==>
      r == Ok(ResearchUpdate([], [query], [NoResultsText(query)]))
    ensures var results := SearchWeb(query, ResultsPerQuery, o.search);
      var analysis := o.analyse(cfg.queryGeneratorModel, query, results);
      results != [] ==>
        && (r.Ok? <==> analysis.Ok?)
        && (r.Ok? ==> r.value.sourcesGathered == results)
        && (r.Ok? ==> r.value.webResearchResult == [InsertCitationMarkers(analysis.value, AsSourceInfos(results))])
  {
    var results := SearchWeb(query, ResultsPerQuery, o.search);
    if results == [] then
      Ok(ResearchUpdate([], [query], [NoResultsText(query)]))
    else
      match o.analyse(cfg.queryGeneratorModel, query, results)
      case Err(e) => Err(e)
      case Ok(text) => Ok(ResearchUpdate(results, [query], [InsertCitationMarkers(text, AsSourceInfos(results))]))
  }

  /** A web-research branch as the fan-in sees it: a query in, an update
      or an error out. */
  type Branch = string -> Result<ResearchUpdate>

  /** The graph's branch: the `web_research` node. */
  function GraphBranch(cfg: Configuration, o: Oracles): Branch {
    query => WebResearch(query, cfg, o)
  }

  /** A branch that completes reports its own query and exactly one
      finding. */
  ghost predicate OneFindingPerQuery(branch: Branch) {
    forall query :: branch(query).Ok? ==>
      branch(query).value.searchQuery == [query] && |branch(query).value.webResearchResult| == 1
  }

  lemma GraphBranchReportsOnce(cfg: Configuration, o: Oracles)
    ensures OneFindingPerQuery(GraphBranch(cfg, o))
  {
    forall query | GraphBranch(cfg, o)(query).Ok?
      ensures GraphBranch(cfg, o)(query).value.searchQuery == [query]
      ensures |GraphBranch(cfg, o)(query).value.webResearchResult| == 1
    {
      assert GraphBranch(cfg, o)(query) == WebResearch(query, cfg, o);
    }
  }

  /** The lists of `xss` one after another, in order. */
  function Concat<T>(xss: seq<seq<T>>): seq<T>
    decreases |xss|
  {
    if |xss| == 0 then [] else xss[0] + Concat(xss[1..])
  }

  /** The sources each branch of a completed batch found, in dispatch
      order. */
  ghost function BatchSources(sends: seq<Send>, branch: Branch): (found: seq<seq<SearchRecord>>)
    requires forall i :: 0 <= i < |sends| ==> branch(sends[i].searchQuery).Ok?
  {
    seq(|sends|, i requires 0 <= i < |sends| => branch(sends[i].searchQuery).value.sourcesGathered)
  }

  /** The first branch's sources, then those of the rest of the batch. */
  lemma BatchSourcesCons(sends: seq<Send>, branch: Branch)
    requires |sends| > 0
    requires forall i :: 0 <= i < |sends| ==> branch(sends[i].searchQuery).Ok?
    ensures BatchSources(sends, branch) ==
      [branch(sends[0].searchQuery).value.sourcesGathered] + BatchSources(sends[1..], branch)
  {
    assert forall i :: 1 <= i < |sends| ==> sends[1..][i - 1] == sends[i];
  }

  /** Fan-in of a batch of branches, in dispatch order: it fails exactly
      when some branch fails, and otherwise holds one query and one finding
      per dispatch, the `i`-th being that of the `i`-th branch, and the
      sources of all branches one after another. */
  function FanIn(sends: seq<Send>, branch: Branch): (r: Result<ResearchUpdate>)
    requires OneFindingPerQuery(branch)
    ensures r.Ok? <==> forall i :: 0 <= i < |sends| ==> branch(sends[i].searchQuery).Ok?
    ensures r.Ok? ==> |r.value.searchQuery| == |sends| && |r.value.webResearchResult| == |sends|
    ensures r.Ok? ==> forall i :: 0 <= i < |sends| ==> r.value.searchQuery[i] == sends[i].searchQuery
    ensures r.Ok? ==> forall i :: 0 <= i < |sends| ==>
      r.value.webResearchResult[i] == branch(sends[i].searchQuery).value.webResearchResult[0]
    ensures r.Ok? ==> r.value.sourcesGathered == Concat(BatchSources(sends, branch))
    decreases |sends|
  {
    if |sends| == 0 then Ok(ResearchUpdate([], [], []))
    else
      match branch(sends[0].searchQuery)
      case Err(e) => Err(e)
      case Ok(u) =>
        match FanIn(sends[1..], branch)
        case Err(e) => Err(e)
        case Ok(rest) =>
          BatchSourcesCons(sends, branch);
          Ok(ResearchUpdate(u.sourcesGathered + rest.sourcesGathered,
                            u.searchQuery + rest.searchQuery,
                            u.webResearchResult + rest.webResearchResult))
  }

  /** Concatenation distributes over appending lists of lists. */
  lemma {:induction false} ConcatAppend<T>(a: seq<seq<T>>, b: seq<seq<T>>)
    ensures Concat(a + b) == Concat(a) + Concat(b)
    decreases |a|
  {
    if |a| > 0 {
      assert (a + b)[1..] == a[1..] + b;
      ConcatAppend(a[1..], b);
    } else {
      assert a + b == b;
    }
  }

  /** The search results a query yields: what its branch gathers. */
  function GraphSources(o: Oracles): string -> seq<SearchRecord> {
    query => SearchWeb(query, ResultsPerQuery, o.search)
  }

  /** The search results of each query of a batch, in dispatch order. */
  function BatchResults(sends: seq<Send>, o: Oracles): (found: seq<seq<SearchRecord>>)
    ensures |found| == |sends|
    ensures forall i :: 0 <= i < |sends| ==> found[i] == SearchWeb(sends[i].searchQuery, ResultsPerQuery, o.search)
  {
    QueryMap(sends, GraphSources(o))
  }

  /** The finding the branch for `query` reports when it completes. */
  function FindingOf(query: string, cfg: Configuration, o: Oracles): (f: string)
    ensures WebResearch(query, cfg, o).Ok? ==> WebResearch(query, cfg, o).value.webResearchResult == [f]
  {
    match WebResearch(query, cfg, o)
    case Ok(u) => u.webResearchResult[0]
    case Err(_) => ""
  }

  function GraphFindings(cfg: Configuration, o: Oracles): string -> string {
    query => FindingOf(query, cfg, o)
  }

  /** The finding of each query of a batch, in dispatch order. */
  function BatchFindings(sends: seq<Send>, cfg: Configuration, o: Oracles): (found: seq<string>)
    ensures |found| == |sends|
    ensures forall i :: 0 <= i < |sends| ==> found[i] == FindingOf(sends[i].searchQuery, cfg, o)
  {
    QueryMap(sends, GraphFindings(cfg, o))
  }

  /** A branch that completes gathers exactly its query's search results
      (none when the search found nothing). */
  lemma BranchGathersResults(query: string, cfg: Configuration, o: Oracles)
    ensures WebResearch(query, cfg, o).Ok? ==>
      WebResearch(query, cfg, o).value.sourcesGathered == SearchWeb(query, ResultsPerQuery, o.search)
  {
  }

  /** The fan-in of the graph's `web_research` branches: as `FanIn`, the
      sources being the search results of the batch's queries one after
      another. */
  function RunBatch(sends: seq<Send>, cfg: Configuration, o: Oracles): (r: Result<ResearchUpdate>)
    ensures r.Ok? <==> forall i :: 0 <= i < |sends| ==> WebResearch(sends[i].searchQuery, cfg, o).Ok?
    ensures r.Ok? ==> |r.value.searchQuery| == |sends| && |r.value.webResearchResult| == |sends|
    ensures r.Ok? ==> forall i :: 0 <= i < |sends| ==> r.value.searchQuery[i] == sends[i].searchQuery
    ensures r.Ok? ==> forall i :: 0 <= i < |sends| ==>
      r.value.webResearchResult[i] == WebResearch(sends[i].searchQuery, cfg, o).value.webResearchResult[0]
    ensures r.Ok? ==> r.value.sourcesGathered == Concat(BatchResults(sends, o))
    ensures r.Ok? ==> r.value.webResearchResult == BatchFindings(sends, cfg, o)
  {
    GraphBranchReportsOnce(cfg, o);
    assert forall i :: 0 <= i < |sends| ==>
      GraphBranch(cfg, o)(sends[i].searchQuery) == WebResearch(sends[i].searchQuery, cfg, o);
    var r := FanIn(sends, GraphBranch(cfg, o));
    if r.Ok? then
      BatchGathersResults(sends, cfg, o);
      r
    else r
  }

  lemma BatchGathersResults(sends: seq<Send>, cfg: Configuration, o: Oracles)
    requires forall i :: 0 <= i < |sends| ==> GraphBranch(cfg, o)(sends[i].searchQuery).Ok?
    ensures BatchSources(sends, GraphBranch(cfg, o)) == BatchResults(sends, o)
  {
    forall i | 0 <= i < |sends|
      ensures BatchSources(sends, GraphBranch(cfg, o))[i] == BatchResults(sends, o)[i]
    {
      var q := sends[i].searchQuery;
      assert GraphBranch(cfg, o)(q) == WebResearch(q, cfg, o);
      BranchGathersResults(q, cfg, o);
    }
  }

  /** Each gathered source as a single entry. */
  function Singles(records: seq<SearchRecord>): (g: seq<Gathered>)
    ensures |g| == |records|
    ensures forall i :: 0 <= i < |records| ==> g[i] == One(records[i])
  {
    seq(|records|, i requires 0 <= i < |records| => One(records[i]))
  }

  lemma SinglesAppend(a: seq<SearchRecord>, b: seq<SearchRecord>)
    ensures Singles(a + b) == Singles(a) + Singles(b)
  {
    assert forall i :: 0 <= i < |a + b| ==> Singles(a + b)[i] == (Singles(a) + Singles(b))[i];
  }

  /** The state after a batch's updates have been appended. */
  function Absorb(state: OverallState, u: ResearchUpdate): OverallState {
    state.(searchQuery := state.searchQuery + u.searchQuery,
           webResearchResult := state.webResearchResult + u.webResearchResult,
           sourcesGathered := state.sourcesGathered + Singles(u.sourcesGathered))
  }

  const SummarySeparator: string := "\n\n---\n\n"

  /** The loop counter as the state holds it, 0 when absent. */
  function LoopCount(state: OverallState): int {
    state.researchLoopCount.GetOr(0)
  }

  /** Reflection: the loop counter goes up by exactly one, and the number of
      queries run so far is the length of `search_query`. The model is the
      state's `reasoning_model` when present, else the configured one. */
  function ReflectionNode(state: OverallState, cfg: Configuration, o: Oracles): (r: Result<ReflectionState>)
    ensures |state.messages| == 0 ==> r.Err?
    ensures r.Ok? ==> r.value.researchLoopCount == LoopCount(state) + 1
    ensures r.Ok? ==> r.value.numberOfRanQueries == |state.searchQuery|
    ensures |state.messages| > 0 ==>
      var v := o.reflect(state.reasoningModel.GetOr(cfg.reflectionModel),
                         state.messages[|state.messages| - 1].content,
                         Join(state.webResearchResult, SummarySeparator));
      (r.Ok? <==> v.Ok?) &&
      (r.Ok? ==> r.value.isSufficient == v.value.isSufficient && r.value.followUpQueries == v.value.followUpQueries)
  {
    if |state.messages| == 0 then Err(IndexError)
    else
      var count := LoopCount(state) + 1;
      var model := state.reasoningModel.GetOr(cfg.reflectionModel);
      match o.reflect(model, state.messages[|state.messages| - 1].content, Join(state.webResearchResult, SummarySeparator))
      case Err(e) => Err(e)
      case Ok(v) => Ok(ReflectionState(v.isSufficient, v.knowledgeGap, v.followUpQueries, count, |state.searchQuery|))
  }

  /** The loop budget: the state's `max_research_loops` unless it is missing
      or 0, in which case the configured one. */
  function EffectiveBudget(stateMax: Option<int>, cfg: Configuration): (b: int)
    ensures stateMax.Some? && stateMax.value != 0 ==> b == stateMax.value
    ensures stateMax.None? || stateMax.value == 0 ==> b == cfg.maxResearchLoops
  {
    if stateMax.Some? && stateMax.value != 0 then stateMax.value else cfg.maxResearchLoops
  }

  /** The routing decision: finalize exactly when the evidence is judged
      sufficient or the budget is used up (sufficiency wins over any
      follow-ups); otherwise one dispatch per follow-up query, in order,
      with ids counting on from the number of queries run. An empty
      follow-up list gives an empty dispatch list, not a finalization. */
  function EvaluateResearch(rs: ReflectionState, stateMax: Option<int>, cfg: Configuration): (route: Route)
    ensures route.ToFinalize? <==> rs.isSufficient || rs.researchLoopCount >= EffectiveBudget(stateMax, cfg)
    ensures route.ToWebResearch? ==> |route.sends| == |rs.followUpQueries|
    ensures route.ToWebResearch? ==> forall i :: 0 <= i < |rs.followUpQueries| ==>
      route.sends[i] == Send(rs.followUpQueries[i], rs.numberOfRanQueries + i)
  {
    if rs.isSufficient || rs.researchLoopCount >= EffectiveBudget(stateMax, cfg) then ToFinalize
    else ToWebResearch(Dispatch(rs.followUpQueries, rs.numberOfRanQueries))
  }

  /** The gathered sources flattened in order: a list entry contributes its
      elements, any other entry itself; duplicates are kept. */
  function FlattenSources(entries: seq<Gathered>): seq<SearchRecord>
    decreases |entries|
  {
    if |entries| == 0 then []
    else
      var last := entries[|entries| - 1];
      FlattenSources(entries[..|entries| - 1]) + (match last case One(r) => [r] case Many(rs) => rs)
  }

  /** Flattening distributes over concatenation: order is kept. */
  lemma {:induction false} FlattenAppend(a: seq<Gathered>, b: seq<Gathered>)
    ensures FlattenSources(a + b) == FlattenSources(a) + FlattenSources(b)
    decreases |b|
  {
    if |b| == 0 {
      assert a + b == a;
    } else {
      var b' := b[..|b| - 1];
      assert (a + b)[..|a + b| - 1] == a + b';
      FlattenAppend(a, b');
    }
  }

  /** Flattening single entries gives them back unchanged, duplicates and
      all: no deduplication happens. */
  lemma {:induction false} FlattenSingles(records: seq<SearchRecord>)
    ensures FlattenSources(Singles(records)) == records
    decreases |records|
  {
    if |records| > 0 {
      var init := records[..|records| - 1];
      FlattenSingles(init);
      assert Singles(records)[..|records| - 1] == Singles(init);
    }
  }

  const AnswerSeparator: string := "\n---\n\n"

  /** Finalization: one model call for the answer (the state's
      `reasoning_model` unless missing or empty, else the configured answer
      model), and the gathered sources flattened. */
  function FinalizeAnswer(state: OverallState, cfg: Configuration, o: Oracles): (r: Result<FinalUpdate>)
    ensures |state.messages| == 0 ==> r.Err?
    ensures r.Ok? ==> r.value.sources == FlattenSources(state.sourcesGathered)
    ensures |state.messages| > 0 ==>
      var model := if state.reasoningModel.Some? && state.reasoningModel.value != "" then state.reasoningModel.value else cfg.answerModel;
      var a := o.answer(model, state.messages[|state.messages| - 1].content, Join(state.webResearchResult, AnswerSeparator));
      (r.Ok? <==> a.Ok?) && (r.Ok? ==> r.value.answer == a.value)
  {
    if |state.messages| == 0 then Err(IndexError)
    else
      var model := if state.reasoningModel.Some? && state.reasoningModel.value != "" then state.reasoningModel.value else cfg.answerModel;
      match o.answer(model, state.messages[|state.messages| - 1].content, Join(state.webResearchResult, AnswerSeparator))
      case Err(e) => Err(e)
      case Ok(text) => Ok(FinalUpdate(text, FlattenSources(state.sourcesGathered)))
  }
}

=== FILE: loop.dfy ===
/** The whole run of the research graph, driven by the oracles: generate
    queries, fan out, then rounds of fan-in, reflection and routing until
    the routing finalizes (or no branch is left to run). The loop counter
    goes up by one per round and finalization is forced once it reaches the
    budget, so `budget - count` measures the rounds left. */
module ResearchLoop {
  import opened Wrappers
  import opened Config
  import opened Graph
  import opened Search
  import Strings

  /** The budget the routing compares the loop counter with; no step
      writes `max_research_loops`, so it is fixed for the whole run. */
  function Budget(state: OverallState, cfg: Configuration): int {
    EffectiveBudget(state.maxResearchLoops, cfg)
  }

  /** Rounds that can still start before the counter reaches the budget. */
  function RoundsLeft(state: OverallState, cfg: Configuration): nat {
    if LoopCount(state) < Budget(state, cfg) then Budget(state, cfg) - LoopCount(state) else 0
  }

  /** The most rounds a loop entered in `state` runs: `max(1, budget - count)`. */
  function MaxRounds(state: OverallState, cfg: Configuration): nat {
    if RoundsLeft(state, cfg) >= 1 then RoundsLeft(state, cfg) else 1
  }

  /** The id of the `k`-th dispatch. */
  function IdAt(sends: seq<Send>, k: nat): int
    requires k < |sends|
  {
    sends[k].id
  }

  ghost predicate IdsIncreasing(sends: seq<Send>) {
    forall a: nat, b: nat {:trigger IdAt(sends, a), IdAt(sends, b)} :: a < b < |sends| ==> IdAt(sends, a) < IdAt(sends, b)
  }

  ghost predicate IdsBelow(sends: seq<Send>, bound: int) {
    forall k: nat {:trigger IdAt(sends, k)} :: k < |sends| ==> IdAt(sends, k) < bound
  }

  /** What one round leaves behind: the batch's fan-in, the state after
      fan-in and reflection, the reflection's answer, and the routing
      decision. */
  datatype Step = Step(batch: ResearchUpdate, state: OverallState, verdict: ReflectionState, route: Route)

  /** What a round promises about the step it returns: the counter goes up
      by one; one query and one finding per dispatch are added; the budget
      and the conversation are untouched; the routing finalizes exactly when
      the verdict is sufficient or the counter reaches the budget; and
      otherwise there is one follow-up dispatch per suggested query, with
      ids counting on from the length of `search_query` after the fan-in. */
  predicate StepFacts(state: OverallState, sends: seq<Send>, cfg: Configuration, step: Step) {
    && step.state.researchLoopCount == Some(LoopCount(state) + 1)
    && |step.state.searchQuery| == |state.searchQuery| + |sends|
    && |step.state.webResearchResult| == |state.webResearchResult| + |sends|
    && step.state.maxResearchLoops == state.maxResearchLoops
    && step.state.messages == state.messages
    && (step.route.ToFinalize? <==> step.verdict.isSufficient || LoopCount(state) + 1 >= Budget(state, cfg))
    && (step.route.ToWebResearch? ==>
          && |step.route.sends| == |step.verdict.followUpQueries|
          && forall i :: 0 <= i < |step.route.sends| ==>
               step.route.sends[i] == Send(step.verdict.followUpQueries[i], |state.searchQuery| + |sends| + i))
  }

  /** What a round promises about the contents of the three lists the
      branches write: the dispatched queries, the batch's findings and the
      batch's sources (as single entries) are appended, in order, after the
      old contents. */
  predicate ListFacts(state: OverallState, sends: seq<Send>, step: Step) {
    && step.state.searchQuery == state.searchQuery + QueriesOf(sends)
    && step.state.webResearchResult == state.webResearchResult + step.batch.webResearchResult
    && step.state.sourcesGathered == state.sourcesGathered + Singles(step.batch.sourcesGathered)
  }

  /** What a round promises about its batch, given what one dispatched
      query contributes — its sources `sourcesOf` and its finding
      `findingOf`: the batch holds the findings of its dispatches in order,
      and their sources one after another. */
  predicate BatchFacts(sends: seq<Send>, step: Step, sourcesOf: string -> seq<SearchRecord>, findingOf: string -> string) {
    && step.batch.webResearchResult == QueryMap(sends, findingOf)
    && step.batch.sourcesGathered == Concat(QueryMap(sends, sourcesOf))
  }

  /** The findings and sources that the dispatches `sends` add to the
      state, in dispatch order, when each query contributes `findingOf`
      and `sourcesOf`. */
  predicate Appended(before: OverallState, after: OverallState, sends: seq<Send>,
                     sourcesOf: string -> seq<SearchRecord>, findingOf: string -> string) {
    && after.webResearchResult == before.webResearchResult + QueryMap(sends, findingOf)
    && after.sourcesGathered == before.sourcesGathered + Singles(Concat(QueryMap(sends, sourcesOf)))
  }

  /** One round of the graph: fan-in of the batch `sends`, reflection,
      routing. The batch is the fan-in of the `web_research` branches, so
      `sources_gathered` grows by exactly the search results of the
      dispatched queries, in dispatch order. */
  function Round(state: OverallState, sends: seq<Send>, cfg: Configuration, o: Oracles): (r: Result<Step>)
    ensures r.Ok? <==> RunBatch(sends, cfg, o).Ok? && ReflectionNode(Absorb(state, RunBatch(sends, cfg, o).value), cfg, o).Ok?
    ensures r.Ok? ==> StepFacts(state, sends, cfg, r.value) && ListFacts(state, sends, r.value)
    ensures r.Ok? ==> r.value.batch == RunBatch(sends, cfg, o).value
    ensures r.Ok? ==>
      r.value.state.sourcesGathered == state.sourcesGathered + Singles(Concat(BatchResults(sends, o)))
    ensures r.Ok? ==> r.value.verdict == ReflectionNode(Absorb(state, RunBatch(sends, cfg, o).value), cfg, o).value
  {
    match RunBatch(sends, cfg, o)
    case Err(e) => Err(e)
    case Ok(u) =>
      var s2 := Absorb(state, u);
      match ReflectionNode(s2, cfg, o)
      case Err(e) => Err(e)
      case Ok(rs) =>
        var s3 := s2.(researchLoopCount := Some(rs.researchLoopCount));
        BatchQueries(u, sends);
        Ok(Step(u, s3, rs, EvaluateResearch(rs, s3.maxResearchLoops, cfg)))
  }

  /** A fan-in that holds each dispatch's query, in order, holds exactly
      the batch's queries. */
  lemma BatchQueries(u: ResearchUpdate, sends: seq<Send>)
    requires |u.searchQuery| == |sends|
    requires forall i :: 0 <= i < |sends| ==> u.searchQuery[i] == sends[i].searchQuery
    ensures u.searchQuery == QueriesOf(sends)
  {
  }

  /** A round as the loop sees it, and the finalization. */
  type RoundStep = (OverallState, seq<Send>) -> Result<Step>
  type Finish = OverallState -> Result<FinalUpdate>

  /** The graph's round and finalization for a configuration and oracles. */
  function GraphRound(cfg: Configuration, o: Oracles): RoundStep {
    (state, sends) => Round(state, sends, cfg, o)
  }

  function GraphFinish(cfg: Configuration, o: Oracles): Finish {
    state => FinalizeAnswer(state, cfg, o)
  }

  ghost predicate KeepsStepFacts(round: RoundStep, cfg: Configuration) {
    forall state, sends :: round(state, sends).Ok? ==> StepFacts(state, sends, cfg, round(state, sends).value)
  }

  ghost predicate KeepsListFacts(round: RoundStep) {
    forall state, sends :: round(state, sends).Ok? ==> ListFacts(state, sends, round(state, sends).value)
  }

  ghost predicate KeepsBatchFacts(round: RoundStep, sourcesOf: string -> seq<SearchRecord>, findingOf: string -> string) {
    forall state, sends :: round(state, sends).Ok? ==> BatchFacts(sends, round(state, sends).value, sourcesOf, findingOf)
  }

  ghost predicate FlattensSources(finish: Finish) {
    forall state :: finish(state).Ok? ==> finish(state).value.sources == FlattenSources(state.sourcesGathered)
  }

  /** The graph's round keeps the step and list facts and the batch facts,
      each query contributing its search results and its branch's finding;
      its finalization returns the gathered sources flattened. */
  lemma GraphStepsBehave(cfg: Configuration, o: Oracles)
    ensures KeepsStepFacts(GraphRound(cfg, o), cfg) && KeepsListFacts(GraphRound(cfg, o))
    ensures KeepsBatchFacts(GraphRound(cfg, o), GraphSources(o), GraphFindings(cfg, o))
    ensures FlattensSources(GraphFinish(cfg, o))
  {
    forall state, sends | GraphRound(cfg, o)(state, sends).Ok?
      ensures StepFacts(state, sends, cfg, GraphRound(cfg, o)(state, sends).value)
      ensures ListFacts(state, sends, GraphRound(cfg, o)(state, sends).value)
      ensures BatchFacts(sends, GraphRound(cfg, o)(state, sends).value, GraphSources(o), GraphFindings(cfg, o))
    {
      assert GraphRound(cfg, o)(state, sends) == Round(state, sends, cfg, o);
      assert BatchResults(sends, o) == QueryMap(sends, GraphSources(o));
      assert BatchFindings(sends, cfg, o) == QueryMap(sends, GraphFindings(cfg, o));
    }
    forall state | GraphFinish(cfg, o)(state).Ok?
      ensures GraphFinish(cfg, o)(state).value.sources == FlattenSources(state.sourcesGathered)
    {
      assert GraphFinish(cfg, o)(state) == FinalizeAnswer(state, cfg, o);
    }
  }

  /** The loop from the fan-in of `sends` on, for any round that keeps the
      step facts and any finalization that flattens the sources. `rounds`
      rounds and the dispatches `dispatched` came before. Unless a step
      fails: at least one and at most `max(1, budget - count)` more rounds
      run; the counter ends at its starting value plus the rounds run;
      every dispatch of the run keeps its place and the ids strictly
      increase; one finding is added per dispatch; the first follow-up id
      is the length of `search_query` after the fan-in; and an answer
      carries the gathered sources flattened. What happens to the lists'
      contents is `LoopLists`. */
  function Loop(state: OverallState, sends: seq<Send>, cfg: Configuration, round: RoundStep, finish: Finish,
                rounds: nat, dispatched: seq<Send>): (out: RunOutcome)
    requires |sends| > 0
    requires KeepsStepFacts(round, cfg) && FlattensSources(finish)
    requires IdsIncreasing(dispatched + sends)
    requires IdsBelow(dispatched + sends, |state.searchQuery| + |sends|)
    ensures !out.Failed? ==> rounds < out.rounds <= rounds + MaxRounds(state, cfg)
    ensures !out.Failed? ==> out.state.researchLoopCount == Some(LoopCount(state) + (out.rounds - rounds))
    ensures !out.Failed? ==> out.state.messages == state.messages
    ensures !out.Failed? ==>
      |out.dispatched| >= |dispatched| + |sends| && out.dispatched[..|dispatched| + |sends|] == dispatched + sends
    ensures !out.Failed? ==> IdsIncreasing(out.dispatched)
    ensures !out.Failed? ==>
      |out.state.webResearchResult| - |state.webResearchResult| == |out.dispatched| - |dispatched|
    ensures !out.Failed? && |out.dispatched| > |dispatched| + |sends| ==>
      out.dispatched[|dispatched| + |sends|].id == |state.searchQuery| + |sends|
    ensures out.Answered? ==> out.sources == FlattenSources(out.state.sourcesGathered)
    decreases RoundsLeft(state, cfg)
  {
    var all := dispatched + sends;
    match round(state, sends)
    case Err(e) => Failed(e)
    case Ok(step) =>
      assert StepFacts(state, sends, cfg, step);
      match step.route
      case ToFinalize =>
        (match finish(step.state)
         case Err(e) => Failed(e)
         case Ok(f) => Answered(step.state, f.answer, f.sources, rounds + 1, all))
      case ToWebResearch(next) =>
        if |next| == 0 then Halted(step.state, rounds + 1, all)
        else
          NextBatchIds(all, next, |state.searchQuery| + |sends|);
          RoundUsesBudget(state, step.state, cfg);
          var out := Loop(step.state, next, cfg, round, finish, rounds + 1, all);
          if out.Failed? then out
          else
            PrefixOfPrefix(out, all, next);
            out
  }

  /** The loop appends to the three lists the branches write, for any
      round that also keeps the list facts: unless a step fails,
      `search_query` grows by exactly the queries dispatched from `sends`
      on, in dispatch order, and the findings and the gathered sources
      present on entry stay in front. When each query contributes a fixed
      finding and fixed sources to its round's batch, the findings and the
      sources grow by exactly those of the queries dispatched from `sends`
      on, in dispatch order, across all rounds. */
  lemma {:induction false} LoopLists(state: OverallState, sends: seq<Send>, cfg: Configuration, round: RoundStep,
                                     finish: Finish, rounds: nat, dispatched: seq<Send>)
    requires |sends| > 0
    requires KeepsStepFacts(round, cfg) && KeepsListFacts(round) && FlattensSources(finish)
    requires IdsIncreasing(dispatched + sends)
    requires IdsBelow(dispatched + sends, |state.searchQuery| + |sends|)
    ensures var out := Loop(state, sends, cfg, round, finish, rounds, dispatched);
      !out.Failed? ==>
        && out.state.searchQuery == state.searchQuery + QueriesOf(out.dispatched[|dispatched|..])
        && state.webResearchResult <= out.state.webResearchResult
        && state.sourcesGathered <= out.state.sourcesGathered
    ensures var out := Loop(state, sends, cfg, round, finish, rounds, dispatched);
      forall sourcesOf: string -> seq<SearchRecord>, findingOf: string -> string ::
        KeepsBatchFacts(round, sourcesOf, findingOf) && !out.Failed? ==>
        Appended(state, out.state, out.dispatched[|dispatched|..], sourcesOf, findingOf)
  {
    LoopQueries(state, sends, cfg, round, finish, rounds, dispatched);
    var out := Loop(state, sends, cfg, round, finish, rounds, dispatched);
    forall sourcesOf: string -> seq<SearchRecord>, findingOf: string -> string
      | KeepsBatchFacts(round, sourcesOf, findingOf) && !out.Failed?
      ensures Appended(state, out.state, out.dispatched[|dispatched|..], sourcesOf, findingOf)
    {
      LoopAppends(state, sends, cfg, round, finish, rounds, dispatched, sourcesOf, findingOf);
    }
  }

  /** The queries half of `LoopLists`: `search_query` grows by the
      dispatched queries, and the findings and sources on entry stay in
      front. */
  lemma {:induction false} LoopQueries(state: OverallState, sends: seq<Send>, cfg: Configuration, round: RoundStep,
                                       finish: Finish, rounds: nat, dispatched: seq<Send>)
    requires |sends| > 0
    requires KeepsStepFacts(round, cfg) && KeepsListFacts(round) && FlattensSources(finish)
    requires IdsIncreasing(dispatched + sends)
    requires IdsBelow(dispatched + sends, |state.searchQuery| + |sends|)
    ensures var out := Loop(state, sends, cfg, round, finish, rounds, dispatched);
      !out.Failed? ==>
        && out.state.searchQuery == state.searchQuery + QueriesOf(out.dispatched[|dispatched|..])
        && state.webResearchResult <= out.state.webResearchResult
        && state.sourcesGathered <= out.state.sourcesGathered
    decreases RoundsLeft(state, cfg)
  {
    var out := Loop(state, sends, cfg, round, finish, rounds, dispatched);
    if round(state, sends).Ok? && !out.Failed? {
      var step := round(state, sends).value;
      var all := dispatched + sends;
      assert ListFacts(state, sends, step);
      if step.route.ToWebResearch? && |step.route.sends| > 0 {
        var next := step.route.sends;
        NextBatchIds(all, next, |state.searchQuery| + |sends|);
        RoundUsesBudget(state, step.state, cfg);
        LoopQueries(step.state, next, cfg, round, finish, rounds + 1, all);
        assert out == Loop(step.state, next, cfg, round, finish, rounds + 1, all);
        DropPrefix(out.dispatched, dispatched, sends);
        QueriesGrow(state.searchQuery, step.state.searchQuery, out.state.searchQuery,
                    sends, out.dispatched[|all|..]);
        PrefixTransitive(state.webResearchResult, step.state.webResearchResult, out.state.webResearchResult);
        PrefixTransitive(state.sourcesGathered, step.state.sourcesGathered, out.state.sourcesGathered);
      } else {
        assert out.dispatched == all;
        assert out.dispatched[|dispatched|..] == sends;
      }
    }
  }

  /** The contents half of `LoopLists`, for one choice of what each query
      contributes: unless a step fails, the findings and the sources grow
      by exactly those of the queries dispatched from `sends` on. */
  lemma {:induction false} LoopAppends(state: OverallState, sends: seq<Send>, cfg: Configuration, round: RoundStep,
                                       finish: Finish, rounds: nat, dispatched: seq<Send>,
                                       sourcesOf: string -> seq<SearchRecord>, findingOf: string -> string)
    requires |sends| > 0
    requires KeepsStepFacts(round, cfg) && KeepsListFacts(round) && FlattensSources(finish)
    requires KeepsBatchFacts(round, sourcesOf, findingOf)
    requires IdsIncreasing(dispatched + sends)
    requires IdsBelow(dispatched + sends, |state.searchQuery| + |sends|)
    ensures var out := Loop(state, sends, cfg, round, finish, rounds, dispatched);
      !out.Failed? ==> Appended(state, out.state, out.dispatched[|dispatched|..], sourcesOf, findingOf)
    decreases RoundsLeft(state, cfg)
  {
    var out := Loop(state, sends, cfg, round, finish, rounds, dispatched);
    LoopStep(state, sends, cfg, round, finish, rounds, dispatched);
    if !out.Failed? {
      var step := round(state, sends).value;
      var all := dispatched + sends;
      assert ListFacts(state, sends, step) && BatchFacts(sends, step, sourcesOf, findingOf);
      OneRoundAppends(state, step, sends, sourcesOf, findingOf);
      if step.route.ToWebResearch? && |step.route.sends| > 0 {
        LoopAppends(step.state, step.route.sends, cfg, round, finish, rounds + 1, all, sourcesOf, findingOf);
        AppendedTwice(state, step.state, out.state, sends, out.dispatched[|all|..], sourcesOf, findingOf);
      }
    }
  }

  /** One unfolding of `Loop`: unless the loop fails, the first round
      succeeds, and the loop either continues from its state with the
      follow-up dispatches, or stops in its state after dispatching
      `sends`. */
  lemma LoopStep(state: OverallState, sends: seq<Send>, cfg: Configuration, round: RoundStep,
                 finish: Finish, rounds: nat, dispatched: seq<Send>)
    requires |sends| > 0
    requires KeepsStepFacts(round, cfg) && FlattensSources(finish)
    requires IdsIncreasing(dispatched + sends)
    requires IdsBelow(dispatched + sends, |state.searchQuery| + |sends|)
    ensures var out := Loop(state, sends, cfg, round, finish, rounds, dispatched);
      !out.Failed? ==> (
        && round(state, sends).Ok?
        && var step, all := round(state, sends).value, dispatched + sends;
           if step.route.ToWebResearch? && |step.route.sends| > 0 then
             && IdsIncreasing(all + step.route.sends)
             && IdsBelow(all + step.route.sends, |step.state.searchQuery| + |step.route.sends|)
             && RoundsLeft(step.state, cfg) < RoundsLeft(state, cfg)
             && out == Loop(step.state, step.route.sends, cfg, round, finish, rounds + 1, all)
             && out.dispatched[|dispatched|..] == sends + out.dispatched[|all|..]
           else
             out.state == step.state && out.dispatched[|dispatched|..] == sends)
  {
    var out := Loop(state, sends, cfg, round, finish, rounds, dispatched);
    if round(state, sends).Ok? && !out.Failed? {
      var step := round(state, sends).value;
      var all := dispatched + sends;
      assert StepFacts(state, sends, cfg, step);
      if step.route.ToWebResearch? && |step.route.sends| > 0 {
        var next := step.route.sends;
        NextBatchIds(all, next, |state.searchQuery| + |sends|);
        RoundUsesBudget(state, step.state, cfg);
        assert out == Loop(step.state, next, cfg, round, finish, rounds + 1, all);
        DropPrefix(out.dispatched, dispatched, sends);
      } else {
        assert out.dispatched == all;
        assert out.dispatched[|dispatched|..] == sends;
      }
    }
  }

  /** A round that keeps the list and batch facts appends its batch's
      findings and sources. */
  lemma OneRoundAppends(state: OverallState, step: Step, sends: seq<Send>,
                        sourcesOf: string -> seq<SearchRecord>, findingOf: string -> string)
    requires ListFacts(state, sends, step) && BatchFacts(sends, step, sourcesOf, findingOf)
    ensures Appended(state, step.state, sends, sourcesOf, findingOf)
  {
  }

  /** Findings and sources appended in two steps are those of both
      batches, in order. */
  lemma AppendedTwice(s0: OverallState, s1: OverallState, s2: OverallState, sends: seq<Send>, rest: seq<Send>,
                      sourcesOf: string -> seq<SearchRecord>, findingOf: string -> string)
    requires Appended(s0, s1, sends, sourcesOf, findingOf) && Appended(s1, s2, rest, sourcesOf, findingOf)
    ensures Appended(s0, s2, sends + rest, sourcesOf, findingOf)
  {
    FindingsTwice(s0.webResearchResult, s1.webResearchResult, s2.webResearchResult, sends, rest, findingOf);
    SourcesTwice(s0.sourcesGathered, s1.sourcesGathered, s2.sourcesGathered, sends, rest, sourcesOf);
  }

  lemma FindingsTwice(f0: seq<string>, f1: seq<string>, f2: seq<string>, sends: seq<Send>, rest: seq<Send>,
                      findingOf: string -> string)
    requires f1 == f0 + QueryMap(sends, findingOf) && f2 == f1 + QueryMap(rest, findingOf)
    ensures f2 == f0 + QueryMap(sends + rest, findingOf)
  {
    QueryMapAppend(sends, rest, findingOf);
  }

  lemma SourcesTwice(g0: seq<Gathered>, g1: seq<Gathered>, g2: seq<Gathered>, sends: seq<Send>, rest: seq<Send>,
                     sourcesOf: string -> seq<SearchRecord>)
    requires g1 == g0 + Singles(Concat(QueryMap(sends, sourcesOf)))
    requires g2 == g1 + Singles(Concat(QueryMap(rest, sourcesOf)))
    ensures g2 == g0 + Singles(Concat(QueryMap(sends + rest, sourcesOf)))
  {
    var a, b := QueryMap(sends, sourcesOf), QueryMap(rest, sourcesOf);
    QueryMapAppend(sends, rest, sourcesOf);
    ConcatAppend(a, b);
    SinglesAppend(Concat(a), Concat(b));
  }

  /** Queries appended in two steps are the queries of both batches. */
  lemma QueriesGrow(q0: seq<string>, q1: seq<string>, q2: seq<string>, sends: seq<Send>, rest: seq<Send>)
    requires q1 == q0 + QueriesOf(sends)
    requires q2 == q1 + QueriesOf(rest)
    ensures q2 == q0 + QueriesOf(sends + rest)
  {
    QueriesAppend(sends, rest);
  }

  /** Dropping `d` from a sequence that starts with `d + s` leaves `s` in
      front of the rest. */
  lemma DropPrefix(xs: seq<Send>, d: seq<Send>, s: seq<Send>)
    requires |xs| >= |d| + |s| && xs[..|d| + |s|] == d + s
    ensures xs[|d|..] == s + xs[|d| + |s|..]
  {
    var a, b := xs[|d|..], s + xs[|d| + |s|..];
    forall i | 0 <= i < |a|
      ensures a[i] == b[i]
    {
      if i < |s| {
        assert xs[|d| + i] == xs[..|d| + |s|][|d| + i];
      }
    }
  }

  /** The queries of two batches one after the other. */
  lemma QueriesAppend(a: seq<Send>, b: seq<Send>)
    ensures QueriesOf(a + b) == QueriesOf(a) + QueriesOf(b)
  {
    assert forall i :: 0 <= i < |a + b| ==> QueriesOf(a + b)[i] == (QueriesOf(a) + QueriesOf(b))[i];
  }

  lemma PrefixTransitive<T>(a: seq<T>, b: seq<T>, c: seq<T>)
    requires a <= b && b <= c
    ensures a <= c
  {
    assert c[..|a|] == c[..|b|][..|a|];
  }

  /** A round that routes back to research used one round of the budget. */
  lemma RoundUsesBudget(state: OverallState, next: OverallState, cfg: Configuration)
    requires next.maxResearchLoops == state.maxResearchLoops
    requires LoopCount(next) == LoopCount(state) + 1 < Budget(state, cfg)
    ensures RoundsLeft(next, cfg) + 1 == RoundsLeft(state, cfg)
    ensures MaxRounds(next, cfg) + 1 == MaxRounds(state, cfg)
  {
  }

  /** A run that kept `all + next` as its first dispatches kept `all` first,
      and its dispatch right after `all` is the first of `next`. */
  lemma PrefixOfPrefix(out: RunOutcome, all: seq<Send>, next: seq<Send>)
    requires !out.Failed? && |next| > 0
    requires |out.dispatched| >= |all| + |next| && out.dispatched[..|all| + |next|] == all + next
    ensures out.dispatched[..|all|] == all
    ensures out.dispatched[|all|] == next[0]
  {
    assert out.dispatched[..|all|] == out.dispatched[..|all| + |next|][..|all|];
    assert out.dispatched[|all|] == (all + next)[|all|];
  }

  /** Follow-up ids count on from the number of queries run, which is above
      every id dispatched so far. */
  lemma NextBatchIds(all: seq<Send>, next: seq<Send>, ran: int)
    requires IdsIncreasing(all) && IdsBelow(all, ran)
    requires forall i :: 0 <= i < |next| ==> next[i].id == ran + i
    ensures IdsIncreasing(all + next)
    ensures IdsBelow(all + next, ran + |next|)
  {
    var xs := all + next;
    forall k: nat | k < |xs| ensures IdAt(xs, k) == if k < |all| then IdAt(all, k) else ran + (k - |all|) {
      if k >= |all| {
        assert xs[k] == next[k - |all|];
      }
    }
    forall a: nat, b: nat | a < b < |xs| ensures IdAt(xs, a) < IdAt(xs, b) {
      assert IdAt(xs, a) == if a < |all| then IdAt(all, a) else ran + (a - |all|);
      assert IdAt(xs, b) == if b < |all| then IdAt(all, b) else ran + (b - |all|);
    }
    forall k: nat | k < |xs| ensures IdAt(xs, k) < ran + |next| {
      assert IdAt(xs, k) == if k < |all| then IdAt(all, k) else ran + (k - |all|);
    }
  }

  /** The run once the initial queries are in `search_query`: the initial
      fan-out, then the loop. Without queries nothing is dispatched and the
      run halts before any round. Every dispatched query is appended to
      `search_query` (so the initial queries appear there twice), and the
      findings and sources present at the start stay in front. When each
      query contributes a fixed finding and fixed sources to its round's
      batch, those of every dispatched query follow, in dispatch order. */
  function Launch(s1: OverallState, cfg: Configuration, round: RoundStep, finish: Finish): (out: RunOutcome)
    requires KeepsStepFacts(round, cfg) && KeepsListFacts(round) && FlattensSources(finish)
    ensures !out.Failed? ==> out.rounds <= MaxRounds(s1, cfg)
    ensures !out.Failed? ==> IdsIncreasing(out.dispatched)
    ensures !out.Failed? ==> |out.state.webResearchResult| == |s1.webResearchResult| + |out.dispatched|
    ensures !out.Failed? ==>
      |out.dispatched| >= |s1.searchQuery| &&
      forall i :: 0 <= i < |s1.searchQuery| ==> out.dispatched[i] == Send(s1.searchQuery[i], i)
    ensures !out.Failed? ==> out.state.searchQuery == s1.searchQuery + QueriesOf(out.dispatched)
    ensures !out.Failed? ==>
      s1.webResearchResult <= out.state.webResearchResult && s1.sourcesGathered <= out.state.sourcesGathered
    ensures forall sourcesOf: string -> seq<SearchRecord>, findingOf: string -> string ::
      KeepsBatchFacts(round, sourcesOf, findingOf) && !out.Failed? ==>
      Appended(s1, out.state, out.dispatched, sourcesOf, findingOf)
    ensures |s1.searchQuery| == 0 ==> out.Halted? && out.rounds == 0
    ensures out.Answered? ==> out.sources == FlattenSources(out.state.sourcesGathered)
  {
    var sends := ContinueToWebResearch(s1.searchQuery);
    if |sends| == 0 then
      assert s1.searchQuery + QueriesOf([]) == s1.searchQuery;
      assert Singles(Concat([])) == [];
      Halted(s1, 0, [])
    else
      InitialIds(sends, |s1.searchQuery|);
      LoopLists(s1, sends, cfg, round, finish, 0, []);
      var out := Loop(s1, sends, cfg, round, finish, 0, []);
      if out.Failed? then out
      else
        PrefixIndices(out.dispatched, sends);
        assert out.dispatched[0..] == out.dispatched;
        out
  }

  /** The initial fan-out's ids `0..n-1` strictly increase and stay below
      any bound from `n` up. */
  lemma InitialIds(sends: seq<Send>, n: nat)
    requires |sends| == n
    requires forall i :: 0 <= i < |sends| ==> sends[i].id == i
    ensures [] + sends == sends
    ensures IdsIncreasing([] + sends) && IdsBelow([] + sends, n + |sends|)
  {
    assert [] + sends == sends;
  }

  /** A sequence that starts with `p` agrees with `p` index by index. */
  lemma PrefixIndices(xs: seq<Send>, p: seq<Send>)
    requires |xs| >= |p| && xs[..|[] + p|] == [] + p
    ensures forall i :: 0 <= i < |p| ==> xs[i] == p[i]
  {
    assert [] + p == p;
    forall i | 0 <= i < |p| ensures xs[i] == p[i] {
      assert xs[i] == xs[..|p|][i];
    }
  }

  /** The whole run: query generation, then `Launch`. Unless a model call
      fails: at most `max(1, budget - count)` rounds run
      (`max(1, max_research_loops)` from a fresh state); the first
      dispatches are the generated queries in order with ids `0..n-1`; all
      ids strictly increase; there is one finding per dispatch; the input's
      queries, then the generated ones, then every dispatched query make up
      `search_query`; the findings are the input's followed by the finding
      of each dispatched query, and the gathered sources the input's
      followed by the search results of each dispatched query, in dispatch
      order; and an answer's sources are the input's gathered sources
      flattened followed by those search results. */
  function Run(input: OverallState, cfg: Configuration, o: Oracles): (out: RunOutcome)
    ensures !out.Failed? ==> out.rounds <= MaxRounds(input, cfg)
    ensures !out.Failed? ==> IdsIncreasing(out.dispatched)
    ensures !out.Failed? ==> |out.state.webResearchResult| == |input.webResearchResult| + |out.dispatched|
    ensures !out.Failed? ==> GenerateQuery(input, cfg, o).Ok?
    ensures !out.Failed? ==>
      var initial := input.searchQuery + GenerateQuery(input, cfg, o).value;
      |out.dispatched| >= |initial| &&
      forall i :: 0 <= i < |initial| ==> out.dispatched[i] == Send(initial[i], i)
    ensures !out.Failed? ==>
      out.state.searchQuery == input.searchQuery + GenerateQuery(input, cfg, o).value + QueriesOf(out.dispatched)
    ensures !out.Failed? ==>
      input.webResearchResult <= out.state.webResearchResult && input.sourcesGathered <= out.state.sourcesGathered
    ensures GenerateQuery(input, cfg, o).Ok? && |input.searchQuery + GenerateQuery(input, cfg, o).value| == 0 ==>
      out.Halted? && out.rounds == 0
    ensures out.Answered? ==> out.sources == FlattenSources(out.state.sourcesGathered)
    ensures out.Answered? ==> FlattenSources(input.sourcesGathered) <= out.sources
    ensures !out.Failed? ==> out.state.webResearchResult == input.webResearchResult + BatchFindings(out.dispatched, cfg, o)
    ensures !out.Failed? ==>
      out.state.sourcesGathered == input.sourcesGathered + Singles(Concat(BatchResults(out.dispatched, o)))
    ensures out.Answered? ==>
      out.sources == FlattenSources(input.sourcesGathered) + Concat(BatchResults(out.dispatched, o))
  {
    match GenerateQuery(input, cfg, o)
    case Err(e) => Failed(e)
    case Ok(queries) =>
      GraphStepsBehave(cfg, o);
      var out := Launch(input.(searchQuery := input.searchQuery + queries), cfg, GraphRound(cfg, o), GraphFinish(cfg, o));
      GraphLaunchContents(input.(searchQuery := input.searchQuery + queries), cfg, o);
      if out.Answered? then
        FlattenPrefix(input.sourcesGathered, out.state.sourcesGathered);
        out
      else out
  }

  /** The graph's launch: the findings and the gathered sources grow by the
      finding and the search results of each dispatched query, in dispatch
      order, and an answer's sources are the flattened earlier ones
      followed by those search results. */
  lemma GraphLaunchContents(s1: OverallState, cfg: Configuration, o: Oracles)
    requires KeepsStepFacts(GraphRound(cfg, o), cfg) && KeepsListFacts(GraphRound(cfg, o))
    requires FlattensSources(GraphFinish(cfg, o))
    ensures var out := Launch(s1, cfg, GraphRound(cfg, o), GraphFinish(cfg, o));
      !out.Failed? ==>
        && out.state.webResearchResult == s1.webResearchResult + BatchFindings(out.dispatched, cfg, o)
        && out.state.sourcesGathered == s1.sourcesGathered + Singles(Concat(BatchResults(out.dispatched, o)))
        && (out.Answered? ==>
              out.sources == FlattenSources(s1.sourcesGathered) + Concat(BatchResults(out.dispatched, o)))
  {
    GraphStepsBehave(cfg, o);
    var out := Launch(s1, cfg, GraphRound(cfg, o), GraphFinish(cfg, o));
    if !out.Failed? {
      assert Appended(s1, out.state, out.dispatched, GraphSources(o), GraphFindings(cfg, o));
      assert BatchResults(out.dispatched, o) == QueryMap(out.dispatched, GraphSources(o));
      assert BatchFindings(out.dispatched, cfg, o) == QueryMap(out.dispatched, GraphFindings(cfg, o));
      AnswerSources(s1.sourcesGathered, Concat(BatchResults(out.dispatched, o)));
    }
  }

  /** Flattening gathered sources followed by single new records gives the
      flattened old ones followed by the records. */
  lemma AnswerSources(earlier: seq<Gathered>, records: seq<SearchRecord>)
    ensures FlattenSources(earlier + Singles(records)) == FlattenSources(earlier) + records
  {
    FlattenAppend(earlier, Singles(records));
    FlattenSingles(records);
  }

  /** Flattening keeps a prefix of the gathered sources in front. */
  lemma FlattenPrefix(a: seq<Gathered>, b: seq<Gathered>)
    requires a <= b
    ensures FlattenSources(a) <= FlattenSources(b)
  {
    assert b == a + b[|a|..];
    FlattenAppend(a, b[|a|..]);
  }

  // ---------------------------------------------------------------------
  // Scenarios
  // ---------------------------------------------------------------------

  /** Every round on a non-empty conversation completes. */
  ghost predicate RoundsSucceed(round: RoundStep) {
    forall state: OverallState, sends :: |state.messages| > 0 ==> round(state, sends).Ok?
  }

  /** Finalization on a non-empty conversation completes. */
  ghost predicate FinishSucceeds(finish: Finish) {
    forall state: OverallState :: |state.messages| > 0 ==> finish(state).Ok?
  }

  /** Every verdict is insufficient and suggests follow-up queries. */
  ghost predicate NeverSatisfied(round: RoundStep) {
    forall state, sends :: round(state, sends).Ok? ==>
      !round(state, sends).value.verdict.isSufficient && |round(state, sends).value.verdict.followUpQueries| > 0
  }

  /** Every verdict is sufficient. */
  ghost predicate AlwaysSatisfied(round: RoundStep) {
    forall state, sends :: round(state, sends).Ok? ==> round(state, sends).value.verdict.isSufficient
  }

  /** Every verdict is insufficient and suggests nothing. */
  ghost predicate UnsatisfiedWithoutFollowUps(round: RoundStep) {
    forall state, sends :: round(state, sends).Ok? ==>
      !round(state, sends).value.verdict.isSufficient && round(state, sends).value.verdict.followUpQueries == []
  }

  /** When every verdict is insufficient with follow-ups, the loop uses its
      whole budget, `max(1, budget - count)` rounds, and then finalizes
      rather than looping on. */
  lemma {:induction false} LoopExhaustsBudget(state: OverallState, sends: seq<Send>, cfg: Configuration,
                                              round: RoundStep, finish: Finish, rounds: nat, dispatched: seq<Send>)
    requires |sends| > 0
    requires KeepsStepFacts(round, cfg) && FlattensSources(finish)
    requires IdsIncreasing(dispatched + sends)
    requires IdsBelow(dispatched + sends, |state.searchQuery| + |sends|)
    requires |state.messages| > 0
    requires RoundsSucceed(round) && FinishSucceeds(finish) && NeverSatisfied(round)
    ensures Loop(state, sends, cfg, round, finish, rounds, dispatched).Answered?
    ensures Loop(state, sends, cfg, round, finish, rounds, dispatched).rounds == rounds + MaxRounds(state, cfg)
    decreases RoundsLeft(state, cfg)
  {
    var step := round(state, sends).value;
    if step.route.ToWebResearch? {
      var all := dispatched + sends;
      NextBatchIds(all, step.route.sends, |state.searchQuery| + |sends|);
      LoopExhaustsBudget(step.state, step.route.sends, cfg, round, finish, rounds + 1, all);
    }
  }

  /** A sufficient verdict finalizes in the round it is given, whatever
      budget remains. */
  lemma SufficientFinalizesAtOnce(state: OverallState, sends: seq<Send>, cfg: Configuration,
                                  round: RoundStep, finish: Finish, rounds: nat, dispatched: seq<Send>)
    requires |sends| > 0
    requires KeepsStepFacts(round, cfg) && FlattensSources(finish)
    requires IdsIncreasing(dispatched + sends)
    requires IdsBelow(dispatched + sends, |state.searchQuery| + |sends|)
    requires |state.messages| > 0
    requires RoundsSucceed(round) && FinishSucceeds(finish) && AlwaysSatisfied(round)
    ensures Loop(state, sends, cfg, round, finish, rounds, dispatched).Answered?
    ensures Loop(state, sends, cfg, round, finish, rounds, dispatched).rounds == rounds + 1
  {
  }

  /** An insufficient verdict without follow-up queries, while budget
      remains, dispatches nothing: the run stops after that round with no
      answer at all, rather than finalizing. */
  lemma EmptyFollowUpsHalt(state: OverallState, sends: seq<Send>, cfg: Configuration,
                           round: RoundStep, finish: Finish, rounds: nat, dispatched: seq<Send>)
    requires |sends| > 0
    requires KeepsStepFacts(round, cfg) && FlattensSources(finish)
    requires IdsIncreasing(dispatched + sends)
    requires IdsBelow(dispatched + sends, |state.searchQuery| + |sends|)
    requires |state.messages| > 0 && LoopCount(state) + 1 < Budget(state, cfg)
    requires RoundsSucceed(round) && UnsatisfiedWithoutFollowUps(round)
    ensures Loop(state, sends, cfg, round, finish, rounds, dispatched).Halted?
    ensures Loop(state, sends, cfg, round, finish, rounds, dispatched).rounds == rounds + 1
  {
  }

  /** Every analysis, reflection and answer call returns. */
  ghost predicate ModelCallsSucceed(o: Oracles) {
    && (forall m, q, rs :: o.analyse(m, q, rs).Ok?)
    && (forall m, t, s :: o.reflect(m, t, s).Ok?)
    && (forall m, t, s :: o.answer(m, t, s).Ok?)
  }

  /** The reflection never judges the evidence sufficient and always
      suggests follow-up queries. */
  ghost predicate NeverSufficient(o: Oracles) {
    forall m, t, s :: o.reflect(m, t, s).Ok? ==>
      !o.reflect(m, t, s).value.isSufficient && |o.reflect(m, t, s).value.followUpQueries| > 0
  }

  /** The reflection always judges the evidence sufficient. */
  ghost predicate AlwaysSufficient(o: Oracles) {
    forall m, t, s :: o.reflect(m, t, s).Ok? ==> o.reflect(m, t, s).value.isSufficient
  }

  /** The reflection judges the evidence insufficient but suggests nothing. */
  ghost predicate InsufficientWithoutFollowUps(o: Oracles) {
    forall m, t, s :: o.reflect(m, t, s).Ok? ==>
      !o.reflect(m, t, s).value.isSufficient && o.reflect(m, t, s).value.followUpQueries == []
  }

  lemma BatchSucceeds(sends: seq<Send>, cfg: Configuration, o: Oracles)
    requires ModelCallsSucceed(o)
    ensures RunBatch(sends, cfg, o).Ok?
  {
    forall i | 0 <= i < |sends|
      ensures WebResearch(sends[i].searchQuery, cfg, o).Ok?
    {
      var q := sends[i].searchQuery;
      assert o.analyse(cfg.queryGeneratorModel, q, SearchWeb(q, ResultsPerQuery, o.search)).Ok?;
    }
  }

  /** When every model call returns, every round of the graph on a
      non-empty conversation completes, with the reflection's verdict, and
      so does finalization. */
  lemma GraphRoundCompletes(state: OverallState, sends: seq<Send>, cfg: Configuration, o: Oracles)
    requires |state.messages| > 0 && ModelCallsSucceed(o)
    ensures Round(state, sends, cfg, o).Ok? && FinalizeAnswer(state, cfg, o).Ok?
    ensures NeverSufficient(o) ==>
      !Round(state, sends, cfg, o).value.verdict.isSufficient &&
      |Round(state, sends, cfg, o).value.verdict.followUpQueries| > 0
    ensures AlwaysSufficient(o) ==> Round(state, sends, cfg, o).value.verdict.isSufficient
    ensures InsufficientWithoutFollowUps(o) ==>
      !Round(state, sends, cfg, o).value.verdict.isSufficient &&
      Round(state, sends, cfg, o).value.verdict.followUpQueries == []
  {
    BatchSucceeds(sends, cfg, o);
    var s2 := Absorb(state, RunBatch(sends, cfg, o).value);
    assert s2.messages == state.messages;
    var v := o.reflect(s2.reasoningModel.GetOr(cfg.reflectionModel),
                       s2.messages[|s2.messages| - 1].content,
                       Strings.Join(s2.webResearchResult, SummarySeparator));
    assert v.Ok?;
    assert ReflectionNode(s2, cfg, o).Ok?;
    var model := if state.reasoningModel.Some? && state.reasoningModel.value != "" then state.reasoningModel.value else cfg.answerModel;
    assert o.answer(model, state.messages[|state.messages| - 1].content, Strings.Join(state.webResearchResult, AnswerSeparator)).Ok?;
  }

  /** The oracle scenarios carried over to the graph's round and finalization. */
  lemma GraphScenarios(cfg: Configuration, o: Oracles)
    requires ModelCallsSucceed(o)
    ensures RoundsSucceed(GraphRound(cfg, o)) && FinishSucceeds(GraphFinish(cfg, o))
    ensures NeverSufficient(o) ==> NeverSatisfied(GraphRound(cfg, o))
    ensures AlwaysSufficient(o) ==> AlwaysSatisfied(GraphRound(cfg, o))
    ensures InsufficientWithoutFollowUps(o) ==> UnsatisfiedWithoutFollowUps(GraphRound(cfg, o))
  {
    var round := GraphRound(cfg, o);
    forall state: OverallState, sends: seq<Send>
      ensures |state.messages| > 0 ==> round(state, sends).Ok?
      ensures round(state, sends).Ok? ==> |state.messages| > 0
    {
      assert round(state, sends) == Round(state, sends, cfg, o);
      if |state.messages| > 0 {
        GraphRoundCompletes(state, sends, cfg, o);
      }
    }
    forall state, sends | round(state, sends).Ok?
      ensures NeverSufficient(o) ==>
        !round(state, sends).value.verdict.isSufficient && |round(state, sends).value.verdict.followUpQueries| > 0
      ensures AlwaysSufficient(o) ==> round(state, sends).value.verdict.isSufficient
      ensures InsufficientWithoutFollowUps(o) ==>
        !round(state, sends).value.verdict.isSufficient && round(state, sends).value.verdict.followUpQueries == []
    {
      assert round(state, sends) == Round(state, sends, cfg, o);
      GraphRoundCompletes(state, sends, cfg, o);
    }
    forall state: OverallState | |state.messages| > 0
      ensures GraphFinish(cfg, o)(state).Ok?
    {
      assert GraphFinish(cfg, o)(state) == FinalizeAnswer(state, cfg, o);
      GraphRoundCompletes(state, [], cfg, o);
    }
  }

  /** The launch of a fresh state whose reflection never finds the
      evidence sufficient runs exactly `max(1, budget)` rounds and answers. */
  lemma LaunchExhaustsBudget(s1: OverallState, cfg: Configuration, round: RoundStep, finish: Finish)
    requires |s1.messages| > 0 && |s1.searchQuery| > 0
    requires KeepsStepFacts(round, cfg) && KeepsListFacts(round) && FlattensSources(finish)
    requires RoundsSucceed(round) && FinishSucceeds(finish) && NeverSatisfied(round)
    ensures Launch(s1, cfg, round, finish).Answered?
    ensures Launch(s1, cfg, round, finish).rounds == MaxRounds(s1, cfg)
  {
    var sends := ContinueToWebResearch(s1.searchQuery);
    assert [] + sends == sends;
    LoopExhaustsBudget(s1, sends, cfg, round, finish, 0, []);
  }

  /** A fresh run whose reflection never finds the evidence sufficient runs
      exactly `max(1, max_research_loops)` rounds and then answers. */
  lemma BudgetExhaustionScenario(input: OverallState, cfg: Configuration, o: Oracles)
    requires |input.messages| > 0 && input.researchLoopCount.None?
    requires GenerateQuery(input, cfg, o).Ok? && |input.searchQuery + GenerateQuery(input, cfg, o).value| > 0
    requires ModelCallsSucceed(o) && NeverSufficient(o)
    ensures Run(input, cfg, o).Answered?
    ensures Run(input, cfg, o).rounds == if Budget(input, cfg) >= 1 then Budget(input, cfg) else 1
  {
    var s1 := input.(searchQuery := input.searchQuery + GenerateQuery(input, cfg, o).value);
    GraphStepsBehave(cfg, o);
    GraphScenarios(cfg, o);
    assert Run(input, cfg, o) == Launch(s1, cfg, GraphRound(cfg, o), GraphFinish(cfg, o));
    LaunchExhaustsBudget(s1, cfg, GraphRound(cfg, o), GraphFinish(cfg, o));
    assert Budget(s1, cfg) == Budget(input, cfg);
  }

  /** With the default configuration and no budget in the state, a run that
      is never satisfied answers after exactly two rounds. */
  lemma DefaultBudgetIsTwoRounds(input: OverallState, o: Oracles)
    requires |input.messages| > 0 && input.researchLoopCount.None? && input.maxResearchLoops.None?
    requires GenerateQuery(input, Defaults, o).Ok? && |input.searchQuery + GenerateQuery(input, Defaults, o).value| > 0
    requires ModelCallsSucceed(o) && NeverSufficient(o)
    ensures Run(input, Defaults, o).Answered? && Run(input, Defaults, o).rounds == 2
  {
    BudgetExhaustionScenario(input, Defaults, o);
  }

  /** A launch whose first verdict is sufficient answers after one round. */
  lemma LaunchSufficient(s1: OverallState, cfg: Configuration, round: RoundStep, finish: Finish)
    requires |s1.messages| > 0 && |s1.searchQuery| > 0
    requires KeepsStepFacts(round, cfg) && KeepsListFacts(round) && FlattensSources(finish)
    requires RoundsSucceed(round) && FinishSucceeds(finish) && AlwaysSatisfied(round)
    ensures Launch(s1, cfg, round, finish).Answered? && Launch(s1, cfg, round, finish).rounds == 1
  {
    var sends := ContinueToWebResearch(s1.searchQuery);
    assert [] + sends == sends;
    SufficientFinalizesAtOnce(s1, sends, cfg, round, finish, 0, []);
  }

  /** A fresh run whose first verdict is sufficient answers after one round. */
  lemma SufficientScenario(input: OverallState, cfg: Configuration, o: Oracles)
    requires |input.messages| > 0
    requires GenerateQuery(input, cfg, o).Ok? && |input.searchQuery + GenerateQuery(input, cfg, o).value| > 0
    requires ModelCallsSucceed(o) && AlwaysSufficient(o)
    ensures Run(input, cfg, o).Answered? && Run(input, cfg, o).rounds == 1
  {
    var s1 := input.(searchQuery := input.searchQuery + GenerateQuery(input, cfg, o).value);
    GraphStepsBehave(cfg, o);
    GraphScenarios(cfg, o);
    assert Run(input, cfg, o) == Launch(s1, cfg, GraphRound(cfg, o), GraphFinish(cfg, o));
    LaunchSufficient(s1, cfg, GraphRound(cfg, o), GraphFinish(cfg, o));
  }

  /** A launch whose first verdict is insufficient without follow-ups, with
      budget for another round, stops after one round with no answer. */
  lemma LaunchHalts(s1: OverallState, cfg: Configuration, round: RoundStep, finish: Finish)
    requires |s1.messages| > 0 && |s1.searchQuery| > 0 && LoopCount(s1) + 1 < Budget(s1, cfg)
    requires KeepsStepFacts(round, cfg) && KeepsListFacts(round) && FlattensSources(finish)
    requires RoundsSucceed(round) && UnsatisfiedWithoutFollowUps(round)
    ensures Launch(s1, cfg, round, finish).Halted? && Launch(s1, cfg, round, finish).rounds == 1
  {
    var sends := ContinueToWebResearch(s1.searchQuery);
    assert [] + sends == sends;
    EmptyFollowUpsHalt(s1, sends, cfg, round, finish, 0, []);
  }

  /** A fresh run whose first verdict is insufficient without follow-ups,
      with more than one round of budget, ends after one round with no
      answer. */
  lemma EmptyFollowUpsScenario(input: OverallState, cfg: Configuration, o: Oracles)
    requires |input.messages| > 0 && input.researchLoopCount.None? && Budget(input, cfg) > 1
    requires GenerateQuery(input, cfg, o).Ok? && |input.searchQuery + GenerateQuery(input, cfg, o).value| > 0
    requires ModelCallsSucceed(o) && InsufficientWithoutFollowUps(o)
    ensures Run(input, cfg, o).Halted? && Run(input, cfg, o).rounds == 1
  {
    var s1 := input.(searchQuery := input.searchQuery + GenerateQuery(input, cfg, o).value);
    GraphStepsBehave(cfg, o);
    GraphScenarios(cfg, o);
    assert Run(input, cfg, o) == Launch(s1, cfg, GraphRound(cfg, o), GraphFinish(cfg, o));
    assert Budget(s1, cfg) == Budget(input, cfg);
    LaunchHalts(s1, cfg, GraphRound(cfg, o), GraphFinish(cfg, o));
  }
}

=== FILE: search.dfy ===
/** The web search step (`search_web` in `graph.py`): one request to the
    search service, asking for at most ten results, and the shaping of the
    decoded response into `{title, url, snippet}` records. The HTTP call and
    the JSON decoding are the parameter `api`; any exception they raise is
    swallowed into an empty result list. */
module Search {
  import opened Wrappers

  /** One entry of the response's `organic_results` list: a dictionary whose
      keys may be missing, or something that is not a dictionary at all (its
      `.get` raises, which the step catches). */
  datatype RawEntry = Entry(title: Option<string>, link: Option<string>, snippet: Option<string>) | NotADict

  /** What the request produced: it raised (network error, error status,
      undecodable body), or a decoded body whose `organic_results` key may
      be missing. */
  datatype SearchResponse = Raised(message: string) | Body(organicResults: Option<seq<RawEntry>>)

  /** The query parameters sent to the service. */
  datatype SearchRequest = SearchRequest(engine: string, q: string, num: int)

  /** One shaped search result. */
  datatype SearchRecord = SearchRecord(title: string, url: string, snippet: string)

  /** The most results the service is asked for. */
  const ServiceLimit: int := 10

  /** The request for `query`: the Google engine, and `min(numResults, 10)`
      results, so never more than ten and never more than asked for. */
  function BuildRequest(query: string, numResults: int): (req: SearchRequest)
    ensures req.q == query && req.engine == "google"
    ensures req.num <= ServiceLimit && req.num <= numResults
    ensures req.num == numResults || req.num == ServiceLimit
  {
    SearchRequest("google", query, if numResults < ServiceLimit then numResults else ServiceLimit)
  }

  /** Python's slice `s[:n]`: a negative `n` counts from the end. */
  function PyPrefix<T>(s: seq<T>, n: int): (r: seq<T>)
    ensures |r| <= |s|
    ensures n >= 0 ==> |r| == if n < |s| then n else |s|
    ensures n < 0 ==> |r| == if |s| + n > 0 then |s| + n else 0
    ensures r == s[..|r|]
  {
    if n >= 0 then (if n < |s| then s[..n] else s)
    else (if |s| + n > 0 then s[..|s| + n] else [])
  }

  /** The record of one entry: `url` is taken from `link`, and a missing
      title, link or snippet becomes the empty string. */
  function Shape(e: RawEntry): SearchRecord
    requires e.Entry?
  {
    SearchRecord(e.title.GetOr(""), e.link.GetOr(""), e.snippet.GetOr(""))
  }

  predicate AllEntries(es: seq<RawEntry>) {
    forall i :: 0 <= i < |es| ==> es[i].Entry?
  }

  /** Shapes the kept entries in order; one entry that is not a dictionary
      makes the whole step fail, and so yield no records. */
  function ShapeAll(es: seq<RawEntry>): (records: seq<SearchRecord>)
    ensures AllEntries(es) ==> |records| == |es|
    ensures AllEntries(es) ==> forall i :: 0 <= i < |es| ==>
      && records[i].title == es[i].title.GetOr("")
      && records[i].url == es[i].link.GetOr("")
      && records[i].snippet == es[i].snippet.GetOr("")
    ensures !AllEntries(es) ==> records == []
  {
    if AllEntries(es) then seq(|es|, i requires 0 <= i < |es| && AllEntries(es) => Shape(es[i])) else []
  }

  /** The records the step returns for a response: nothing when the call
      raised or the body has no `organic_results`; otherwise, when every
      kept entry (the first `numResults`) is a dictionary, exactly those
      entries shaped, in order, and when one is not, nothing. */
  function ShapeResponse(resp: SearchResponse, numResults: int): (records: seq<SearchRecord>)
    ensures resp.Raised? ==> records == []
    ensures resp.Body? && resp.organicResults.None? ==> records == []
    ensures numResults >= 0 ==> |records| <= numResults
    ensures resp.Body? && resp.organicResults.Some? ==>
      var kept := PyPrefix(resp.organicResults.value, numResults);
      && (AllEntries(kept) ==>
            && |records| == |kept|
            && forall i :: 0 <= i < |kept| ==>
                 && records[i].title == kept[i].title.GetOr("")
                 && records[i].url == kept[i].link.GetOr("")
                 && records[i].snippet == kept[i].snippet.GetOr(""))
      && (!AllEntries(kept) ==> records == [])
  {
    match resp
    case Raised(_) => []
    case Body(None) => []
    case Body(Some(results)) => ShapeAll(PyPrefix(results, numResults))
  }

  /** `search_web(query, num_results)`: never fails, asks the service for at
      most ten results, and returns at most `numResults` records; when the
      response has `organic_results` whose first `numResults` entries are
      all dictionaries, those entries shaped in order (title, `link` as
      url, snippet, each `""` when missing), and otherwise nothing. */
  function SearchWeb(query: string, numResults: int, api: SearchRequest -> SearchResponse): (records: seq<SearchRecord>)
    ensures numResults >= 0 ==> |records| <= numResults
    ensures api(BuildRequest(query, numResults)).Raised? ==> records == []
    ensures api(BuildRequest(query, numResults)).Body? && api(BuildRequest(query, numResults)).organicResults.None? ==>
      records == []
    ensures var resp := api(BuildRequest(query, numResults));
      resp.Body? && resp.organicResults.Some? ==>
      var kept := PyPrefix(resp.organicResults.value, numResults);
      && (AllEntries(kept) ==>
            && |records| == |kept|
            && forall i :: 0 <= i < |kept| ==>
                 && records[i].title == kept[i].title.GetOr("")
                 && records[i].url == kept[i].link.GetOr("")
                 && records[i].snippet == kept[i].snippet.GetOr(""))
      && (!AllEntries(kept) ==> records == [])
  {
    ShapeResponse(api(BuildRequest(query, numResults)), numResults)
  }
}

=== FILE: strings.dfy ===
/** The handful of Python string operations the agent relies on: decimal
    formatting of integers (`f"{i}"`), parsing of digit runs (`int(...)`),
    substring search (`in`), `str.replace`, `str.split`, `str.join` and
    ASCII `str.upper`. Strings are `seq<char>`. */
module Strings {

  predicate IsDigit(c: char) {
    '0' <= c <= '9'
  }

  predicate AllDigits(s: string) {
    forall i :: 0 <= i < |s| ==> IsDigit(s[i])
  }

  function DigitChar(d: nat): (c: char)
    requires d < 10
    ensures IsDigit(c)
  {
    ((('0' as int) + d) as char)
  }

  function DigitValue(c: char): (d: nat)
    requires IsDigit(c)
    ensures d < 10
  {
    (c as int) - ('0' as int)
  }

  /** Decimal text of a natural number, as Python's `str(n)`: at least one
      digit and no leading zero. */
  function NatToString(n: nat): (s: string)
    ensures |s| >= 1 && AllDigits(s)
    ensures s[0] == '0' ==> n == 0 && |s| == 1
    decreases n
  {
    if n < 10 then [DigitChar(n)] else NatToString(n / 10) + [DigitChar(n % 10)]
  }

  /** Decimal text of an integer, as Python's `str(i)`: a minus sign, then
      the digits of the magnitude. */
  function IntToString(i: int): (s: string)
    ensures |s| >= 1
    ensures i >= 0 <==> IsDigit(s[0])
  {
    if i < 0 then "-" + NatToString(-i) else NatToString(i)
  }

  /** The value of a run of decimal digits, as Python's `int(...)` on it
      (leading zeros allowed, the empty run reads as 0). */
  function ParseDecimal(s: string): nat
    requires AllDigits(s)
  {
    if |s| == 0 then 0 else 10 * ParseDecimal(s[..|s| - 1]) + DigitValue(s[|s| - 1])
  }

  /** Parsing the decimal text of `n` gives back `n`. */
  lemma {:induction false} ParseNatToString(n: nat)
    ensures ParseDecimal(NatToString(n)) == n
    decreases n
  {
    var s := NatToString(n);
    if n < 10 {
      assert s[..|s| - 1] == [];
    } else {
      ParseNatToString(n / 10);
      assert s[..|s| - 1] == NatToString(n / 10);
    }
  }

  /** Different numbers have different decimal texts. */
  lemma NatToStringInjective(a: nat, b: nat)
    ensures NatToString(a) == NatToString(b) ==> a == b
  {
    ParseNatToString(a);
    ParseNatToString(b);
  }

  /** Different integers have different decimal texts. */
  lemma IntToStringInjective(a: int, b: int)
    requires IntToString(a) == IntToString(b)
    ensures a == b
  {
    if a < 0 && b < 0 {
      assert NatToString(-a) == IntToString(a)[1..];
      assert NatToString(-b) == IntToString(b)[1..];
      NatToStringInjective(-a, -b);
    } else if a >= 0 && b >= 0 {
      NatToStringInjective(a, b);
    }
  }

  /** Python's `p in s`: `p` occurs somewhere in `s`. */
  predicate Contains(s: string, p: string)
    decreases |s|
  {
    p <= s || (|s| > 0 && Contains(s[1..], p))
  }

  /** `p` occurs in `s` starting at index `i`. */
  ghost predicate OccursAt(s: string, p: string, i: int) {
    0 <= i && i + |p| <= |s| && s[i..i + |p|] == p
  }

  /** `Contains` holds exactly when there is an index where `p` occurs. */
  lemma {:induction false} ContainsIffOccurs(s: string, p: string)
    ensures Contains(s, p) <==> exists i :: OccursAt(s, p, i)
    decreases |s|
  {
    if p <= s {
      assert OccursAt(s, p, 0);
    } else if |s| == 0 {
      assert forall i :: !OccursAt(s, p, i);
    } else {
      ContainsIffOccurs(s[1..], p);
      if Contains(s[1..], p) {
        var i :| OccursAt(s[1..], p, i);
        TailSlice(s, i, |p|);
        assert OccursAt(s, p, i + 1);
      } else {
        forall i | OccursAt(s, p, i)
          ensures i > 0 && OccursAt(s[1..], p, i - 1)
        {
          OccursShift(s, p, i);
        }
      }
    }
  }

  /** An occurrence past the first character is an occurrence in the rest. */
  lemma OccursShift(s: string, p: string, i: int)
    requires |s| > 0 && OccursAt(s, p, i)
    ensures i == 0 ==> p <= s
    ensures i > 0 ==> OccursAt(s[1..], p, i - 1)
  {
    if i > 0 {
      TailSlice(s, i - 1, |p|);
    }
  }

  /** A slice of the text after its first character, by index shift. */
  lemma TailSlice(s: string, i: nat, n: nat)
    requires |s| > 0 && i + n <= |s| - 1
    ensures s[1..][i..i + n] == s[i + 1..i + 1 + n]
  {
    var a, b := s[1..][i..i + n], s[i + 1..i + 1 + n];
    forall k | 0 <= k < n
      ensures a[k] == b[k]
    {
    }
  }

  /** A text that contains `m` contains every prefix of `m`. */
  lemma ContainsPrefixOfPattern(s: string, m: string, k: nat)
    requires k <= |m|
    ensures Contains(s, m) ==> Contains(s, m[..k])
  {
    ContainsIffOccurs(s, m);
    ContainsIffOccurs(s, m[..k]);
    forall j | OccursAt(s, m, j)
      ensures OccursAt(s, m[..k], j)
    {
      assert s[j..j + k] == s[j..j + |m|][..k];
    }
  }

  /** Python's `s.replace(p, r)` for a non-empty `p`: scanning left to right,
      every non-overlapping occurrence of `p` is replaced by `r`. */
  function ReplaceAll(s: string, p: string, r: string): string
    requires |p| > 0
    decreases |s|
  {
    if |s| == 0 then ""
    else if p <= s then r + ReplaceAll(s[|p|..], p, r)
    else [s[0]] + ReplaceAll(s[1..], p, r)
  }

  /** Python's `s.split(sep)` for a non-empty `sep`. */
  function Split(s: string, sep: string): (parts: seq<string>)
    requires |sep| > 0
    ensures |parts| >= 1
    decreases |s|
  {
    if |s| == 0 then [""]
    else if sep <= s then [""] + Split(s[|sep|..], sep)
    else
      var rest := Split(s[1..], sep);
      [[s[0]] + rest[0]] + rest[1..]
  }

  /** Python's `sep.join(parts)`. */
  function Join(parts: seq<string>, sep: string): string
    decreases |parts|
  {
    if |parts| == 0 then ""
    else if |parts| == 1 then parts[0]
    else parts[0] + sep + Join(parts[1..], sep)
  }

  lemma JoinEmptyHead(xs: seq<string>, sep: string)
    requires |xs| >= 1
    ensures Join([""] + xs, sep) == sep + Join(xs, sep)
  {
    assert ([""] + xs)[1..] == xs;
  }

  lemma JoinExtendHead(c: char, xs: seq<string>, sep: string)
    requires |xs| >= 1
    ensures Join([[c] + xs[0]] + xs[1..], sep) == [c] + Join(xs, sep)
  {
    if |xs| > 1 {
      assert ([[c] + xs[0]] + xs[1..])[1..] == xs[1..];
    }
  }

  /** `str.replace` is `str.join` over `str.split`: replacing `p` by `r` is
      the same as splitting at `p` and gluing the pieces with `r`. */
  lemma {:induction false} ReplaceIsJoinOfSplit(s: string, p: string, r: string)
    requires |p| > 0
    ensures ReplaceAll(s, p, r) == Join(Split(s, p), r)
    decreases |s|
  {
    if |s| == 0 {
    } else if p <= s {
      ReplaceIsJoinOfSplit(s[|p|..], p, r);
      JoinEmptyHead(Split(s[|p|..], p), r);
    } else {
      ReplaceIsJoinOfSplit(s[1..], p, r);
      JoinExtendHead(s[0], Split(s[1..], p), r);
    }
  }

  /** Replacing a pattern by itself changes nothing. */
  lemma {:induction false} ReplaceBySelf(s: string, p: string)
    requires |p| > 0
    ensures ReplaceAll(s, p, p) == s
    decreases |s|
  {
    if |s| == 0 {
    } else if p <= s {
      ReplaceBySelf(s[|p|..], p);
      assert s == s[..|p|] + s[|p|..];
    } else {
      ReplaceBySelf(s[1..], p);
      assert s == [s[0]] + s[1..];
    }
  }

  /** Joining the pieces of a split with the separator restores the text. */
  lemma SplitJoinRoundTrip(s: string, sep: string)
    requires |sep| > 0
    ensures Join(Split(s, sep), sep) == s
  {
    ReplaceIsJoinOfSplit(s, sep, sep);
    ReplaceBySelf(s, sep);
  }

  /** A text in which `p` does not occur is left unchanged by replacing `p`. */
  lemma {:induction false} ReplaceAbsent(s: string, p: string, r: string)
    requires |p| > 0
    requires !Contains(s, p)
    ensures ReplaceAll(s, p, r) == s
    decreases |s|
  {
    if |s| > 0 {
      ReplaceAbsent(s[1..], p, r);
      assert s == [s[0]] + s[1..];
    }
  }

  /** A leading stretch in which no occurrence of `p` can start (each first
      character of `p` is followed, inside the stretch, by a character other
      than the second) passes through a replace unchanged. */
  lemma {:induction false} ReplaceSkips(x: string, y: string, p: string, r: string)
    requires |p| >= 2
    requires forall k :: 0 <= k < |x| && x[k] == p[0] ==> k + 1 < |x| && x[k + 1] != p[1]
    ensures ReplaceAll(x + y, p, r) == x + ReplaceAll(y, p, r)
    decreases |x|
  {
    if |x| == 0 {
      assert x + y == y;
    } else {
      var xy := x + y;
      assert !(p <= xy) by {
        if x[0] == p[0] {
          assert xy[1] == x[1];
        }
      }
      assert ReplaceAll(xy, p, r) == [x[0]] + ReplaceAll(xy[1..], p, r);
      assert xy[1..] == x[1..] + y;
      forall k | 0 <= k < |x[1..]| && x[1..][k] == p[0]
        ensures k + 1 < |x[1..]| && x[1..][k + 1] != p[1]
      {
        assert x[1..][k] == x[k + 1];
      }
      ReplaceSkips(x[1..], y, p, r);
      assert [x[0]] + x[1..] == x;
    }
  }

  /** After such a stretch, an occurrence of `p` is replaced by `r`. */
  lemma ReplaceAfterSkip(x: string, y: string, p: string, r: string)
    requires |p| >= 2
    requires forall k :: 0 <= k < |x| && x[k] == p[0] ==> k + 1 < |x| && x[k + 1] != p[1]
    ensures ReplaceAll(x + (p + y), p, r) == x + (r + ReplaceAll(y, p, r))
  {
    ReplaceSkips(x, p + y, p, r);
    assert (p + y)[|p|..] == y;
  }

  /** What occurs in a suffix occurs in the whole text. */
  lemma {:induction false} ContainsInSuffix(x: string, y: string, m: string)
    ensures Contains(y, m) ==> Contains(x + y, m)
    decreases |x|
  {
    if |x| == 0 {
      assert x + y == y;
    } else {
      ContainsInSuffix(x[1..], y, m);
      assert (x + y)[1..] == x[1..] + y;
    }
  }

  /** An occurrence of `m` cannot start in a leading stretch that lacks the
      first character of `m`, so it lies in what follows. */
  lemma {:induction false} SkipLeading(w: string, y: string, m: string)
    requires |m| > 0 && m[0] !in w
    ensures Contains(w + y, m) ==> Contains(y, m)
    decreases |w|
  {
    if |w| == 0 {
      assert w + y == y;
    } else {
      assert (w + y)[0] == w[0] != m[0];
      assert (w + y)[1..] == w[1..] + y;
      SkipLeading(w[1..], y, m);
    }
  }

  /** Replacing a pattern that occurs puts the replacement into the text. */
  lemma {:induction false} ReplaceInserts(s: string, p: string, r: string)
    requires |p| > 0
    ensures Contains(s, p) ==> Contains(ReplaceAll(s, p, r), r)
    decreases |s|
  {
    if |s| > 0 && !(p <= s) {
      ReplaceInserts(s[1..], p, r);
      var t := ReplaceAll(s[1..], p, r);
      assert ([s[0]] + t)[1..] == t;
    } else if |s| > 0 {
      assert r <= ReplaceAll(s, p, r);
    }
  }

  /** A stretch at the front of a replaced text that lacks the first
      character of the replacement was already at the front before. */
  lemma {:induction false} ReplacePullBack(y: string, p: string, r: string, w: string)
    requires |p| > 0 && |r| > 0 && r[0] !in w
    ensures w <= ReplaceAll(y, p, r) ==> w <= y
    decreases |y|
  {
    if |w| > 0 && |y| > 0 {
      if p <= y {
        assert ReplaceAll(y, p, r)[0] == r[0] != w[0];
      } else {
        var t := ReplaceAll(y[1..], p, r);
        assert ReplaceAll(y, p, r) == [y[0]] + t;
        ReplacePullBack(y[1..], p, r, w[1..]);
        assert w <= [y[0]] + t ==> w[1..] <= t;
        assert w[0] == y[0] && w[1..] <= y[1..] ==> w <= y;
      }
    }
  }

  /** Gluing `r` in front of `y`, neither of which contains `m`, creates no
      occurrence of `m` when `r` holds the first character of `m` only at
      its start and ends in a character `m` does not have. */
  lemma NoMatchAcross(r: string, y: string, m: string)
    requires |r| > 0 && |m| > 0
    requires m[0] !in r[1..] && r[|r| - 1] !in m
    requires !Contains(r, m) && !Contains(y, m)
    ensures !Contains(r + y, m)
  {
    assert (r + y)[1..] == r[1..] + y;
    SkipLeading(r[1..], y, m);
    if |m| <= |r| {
      assert !(m <= r);
      assert (r + y)[..|m|] == r[..|m|];
    } else {
      assert m[|r| - 1] != (r + y)[|r| - 1];
    }
  }

  /** Replacing `p` by `r` creates no occurrence of `m` when there was none
      (or `m` is `p` itself), `r` does not contain `m`, and `r` and `m`
      cannot overlap at the seams. */
  lemma {:induction false} ReplaceAvoids(s: string, p: string, r: string, m: string)
    requires |p| > 0 && |r| > 0 && |m| > 0
    requires r[0] !in m[1..] && m[0] !in r[1..] && r[|r| - 1] !in m
    requires !Contains(r, m)
    requires m == p || !Contains(s, m)
    ensures !Contains(ReplaceAll(s, p, r), m)
    decreases |s|
  {
    if |s| > 0 {
      if p <= s {
        assert s == s[..|p|] + s[|p|..];
        ContainsInSuffix(s[..|p|], s[|p|..], m);
        ReplaceAvoids(s[|p|..], p, r, m);
        NoMatchAcross(r, ReplaceAll(s[|p|..], p, r), m);
      } else {
        ReplaceAvoids(s[1..], p, r, m);
        var t := ReplaceAll(s[1..], p, r);
        assert ReplaceAll(s, p, r) == [s[0]] + t;
        assert ([s[0]] + t)[1..] == t;
        assert !(m <= s);
        var m1, s1 := m[1..], s[1..];
        ReplacePullBack(s1, p, r, m1);
        assert m <= [s[0]] + t ==> m1 <= t;
        assert m[0] == s[0] && m1 <= s1 ==> m <= s;
      }
    }
  }

  /** Neither of `a` and `b` is a prefix of the other, so they cannot
      both start at the same index of a text. */
  predicate Diverge(a: string, b: string) {
    !(a <= b) && !(b <= a)
  }

  /** Two prefixes of one text: the shorter is a prefix of the longer. */
  lemma PrefixesOfOne(a: string, b: string, s: string)
    ensures a <= s && b <= s ==> a <= b || b <= a
  {
    if a <= s && b <= s {
      if |a| <= |b| {
        assert a == b[..|a|];
      } else {
        assert b == a[..|b|];
      }
    }
  }

  /** Replacing `p` keeps every occurrence of a `w` that cannot overlap
      an occurrence of `p`: neither is a prefix of the other, and
      neither holds the other's first character after its own. */
  lemma {:induction false} ReplaceKeeps(s: string, p: string, r: string, w: string)
    requires |p| >= 2 && |w| > 0
    requires p[0] !in w[1..] && w[0] !in p[1..]
    requires Diverge(p, w)
    ensures Contains(s, w) ==> Contains(ReplaceAll(s, p, r), w)
    decreases |s|
  {
    if |s| > 0 {
      if p <= s {
        ReplaceKeeps(s[|p|..], p, r, w);
        KeepsAtMatch(s, p, r, w);
      } else {
        ReplaceKeeps(s[1..], p, r, w);
        KeepsPastChar(s, p, r, w);
      }
    }
  }

  /** The step of `ReplaceKeeps` where `p` starts the text: no `w` starts
      there, so every `w` lies in the rest of the text. */
  lemma KeepsAtMatch(s: string, p: string, r: string, w: string)
    requires |p| >= 2 && |w| > 0 && p <= s
    requires p[0] !in w[1..] && w[0] !in p[1..]
    requires Diverge(p, w)
    requires Contains(s[|p|..], w) ==> Contains(ReplaceAll(s[|p|..], p, r), w)
    ensures Contains(s, w) ==> Contains(ReplaceAll(s, p, r), w)
  {
    PrefixesOfOne(p, w, s);
    assert !(w <= s);
    assert s[1..] == p[1..] + s[|p|..];
    SkipLeading(p[1..], s[|p|..], w);
    assert ReplaceAll(s, p, r) == r + ReplaceAll(s[|p|..], p, r);
    ContainsInSuffix(r, ReplaceAll(s[|p|..], p, r), w);
  }

  /** The step of `ReplaceKeeps` where `p` does not start the text: a `w`
      starting there passes through unchanged, and any other lies in the
      rest of the text. */
  lemma KeepsPastChar(s: string, p: string, r: string, w: string)
    requires |p| >= 2 && |w| > 0 && |s| > 0 && !(p <= s)
    requires p[0] !in w[1..]
    requires Contains(s[1..], w) ==> Contains(ReplaceAll(s[1..], p, r), w)
    ensures Contains(s, w) ==> Contains(ReplaceAll(s, p, r), w)
  {
    var t := ReplaceAll(s[1..], p, r);
    assert ReplaceAll(s, p, r) == [s[0]] + t;
    if w <= s {
      assert s[1..] == w[1..] + s[|w|..];
      ReplaceSkips(w[1..], s[|w|..], p, r);
      assert [s[0]] + t == w + ReplaceAll(s[|w|..], p, r);
    } else {
      assert ([s[0]] + t)[1..] == t;
    }
  }

  /** The first piece of a split is a prefix of the text. */
  lemma {:induction false} SplitHeadIsPrefix(s: string, sep: string)
    requires |sep| > 0
    ensures Split(s, sep)[0] <= s
    decreases |s|
  {
    if |s| > 0 && !(sep <= s) {
      SplitHeadIsPrefix(s[1..], sep);
    }
  }

  /** Splitting is maximal: no piece still contains the separator. */
  lemma {:induction false} SplitPiecesAvoidSeparator(s: string, sep: string)
    requires |sep| > 0
    ensures forall k :: 0 <= k < |Split(s, sep)| ==> !Contains(Split(s, sep)[k], sep)
    decreases |s|
  {
    var parts := Split(s, sep);
    if |s| == 0 {
      assert parts == [""];
    } else if sep <= s {
      SplitPiecesAvoidSeparator(s[|sep|..], sep);
      assert parts == [""] + Split(s[|sep|..], sep);
    } else {
      var rest := Split(s[1..], sep);
      SplitPiecesAvoidSeparator(s[1..], sep);
      SplitHeadIsPrefix(s[1..], sep);
      var head := [s[0]] + rest[0];
      assert parts == [head] + rest[1..];
      assert head[1..] == rest[0];
      assert !Contains(head, sep);
    }
  }

  /** Splitting text that begins with a separator-free piece and the
      (single-character) separator peels that piece off. */
  lemma {:induction false} SplitAfterPiece(x: string, c: char, y: string)
    requires c !in x
    ensures Split(x + [c] + y, [c]) == [x] + Split(y, [c])
    decreases |x|
  {
    if |x| == 0 {
      assert x + [c] + y == [c] + y;
      assert ([c] + y)[1..] == y;
    } else {
      var t := x + [c] + y;
      SplitAfterPiece(x[1..], c, y);
      assert t[0] == x[0] != c;
      assert !([c] <= t);
      assert t[1..] == x[1..] + [c] + y;
      assert Split(t, [c]) == [[t[0]] + x[1..]] + Split(y, [c]);
      assert x == [x[0]] + x[1..];
    }
  }

  /** Splitting separator-free text gives the text back as the only piece. */
  lemma {:induction false} SplitWithoutSeparator(x: string, c: char)
    requires c !in x
    ensures Split(x, [c]) == [x]
    decreases |x|
  {
    if |x| > 0 {
      SplitWithoutSeparator(x[1..], c);
      assert x == [x[0]] + x[1..];
    }
  }

  /** Joining separator-free pieces with a single-character separator and
      splitting again gives the pieces back. */
  lemma {:induction false} JoinSplitRoundTrip(parts: seq<string>, c: char)
    requires |parts| >= 1
    requires forall k :: 0 <= k < |parts| ==> c !in parts[k]
    ensures Split(Join(parts, [c]), [c]) == parts
    decreases |parts|
  {
    if |parts| == 1 {
      SplitWithoutSeparator(parts[0], c);
    } else {
      JoinSplitRoundTrip(parts[1..], c);
      SplitAfterPiece(parts[0], c, Join(parts[1..], [c]));
      assert parts == [parts[0]] + parts[1..];
    }
  }

  /** ASCII upper-casing, as Python's `str.upper` on identifiers. */
  function UpperChar(c: char): char {
    if 'a' <= c <= 'z' then (c as int - 32) as char else c
  }

  /** Upper-casing keeps the length, leaves no lower-case ASCII letter,
      keeps every other character, and sends each lower-case letter to the
      upper-case letter at the same place in the alphabet. */
  function Upper(s: string): (u: string)
    ensures |u| == |s|
    ensures forall i :: 0 <= i < |u| ==> !('a' <= u[i] <= 'z')
    ensures forall i :: 0 <= i < |s| && !('a' <= s[i] <= 'z') ==> u[i] == s[i]
    ensures forall i :: 0 <= i < |s| && 'a' <= s[i] <= 'z' ==>
      'A' <= u[i] <= 'Z' && u[i] as int - 'A' as int == s[i] as int - 'a' as int
  {
    seq(|s|, i requires 0 <= i < |s| => UpperChar(s[i]))
  }
}

=== FILE: utils.dfy ===
/** The citation and source helpers of the agent (`utils.py`): turning `[i]`
    markers into markdown links, shortening URLs, formatting numbered source
    lists, extracting `[n]` citations and assembling the research topic from
    a conversation. */
module Utils {
  import opened Wrappers
  import opened Strings

  /** A source dictionary as the helpers read it: any of its keys may be
      missing, in which case the helper applies its own default. */
  datatype SourceInfo = SourceInfo(title: Option<string>, url: Option<string>, snippet: Option<string>)

  /** The literal citation marker `[i]`. */
  function Marker(i: nat): string {
    "[" + NatToString(i) + "]"
  }

  /** Title of the `i`-th source (1-based), `Source i` when missing. */
  function TitleOf(src: SourceInfo, i: nat): string {
    src.title.GetOr("Source " + NatToString(i))
  }

  /** URL of a source for display, `#` when missing. */
  function UrlOf(src: SourceInfo): string {
    src.url.GetOr("#")
  }

  /** The markdown link `[title](url)` for the `i`-th source. */
  function Link(i: nat, src: SourceInfo): string {
    "[" + TitleOf(src, i) + "](" + UrlOf(src) + ")"
  }

  // ---------------------------------------------------------------------
  // insert_citation_markers
  // ---------------------------------------------------------------------

  /** One iteration of the loop: if `[i]` occurs in the current text, every
      occurrence of it is replaced by the link of source `i`. */
  function MarkerStep(text: string, i: nat, src: SourceInfo): string {
    var marker := Marker(i);
    if Contains(text, marker) then ReplaceAll(text, marker, Link(i, src)) else text
  }

  /** The text after sources `1..k` have been processed, in increasing order;
      when none of the markers `[1]..[k]` occurs in the text, it is unchanged. */
  function ApplyMarkers(text: string, sources: seq<SourceInfo>, k: nat): (r: string)
    requires k <= |sources|
    ensures (forall i :: 1 <= i <= k ==> !Contains(text, Marker(i))) ==> r == text
    decreases k
  {
    if k == 0 then text
    else MarkerStep(ApplyMarkers(text, sources, k - 1), k, sources[k - 1])
  }

  /** Replaces the markers `[1]..[n]` of `text` by links to the `n` sources;
      with no sources, or when the text holds none of those markers, the
      text comes back unchanged (so `[3]` with two sources stays literal). */
  function InsertCitationMarkers(text: string, sources: seq<SourceInfo>): (r: string)
    ensures |sources| == 0 ==> r == text
    ensures (forall i :: 1 <= i <= |sources| ==> !Contains(text, Marker(i))) ==> r == text
  {
    if |sources| == 0 then text else ApplyMarkers(text, sources, |sources|)
  }

  /** The `in` guard of the loop does not change its outcome: each step is a
      plain replace, which is splitting the text at `[i]` and gluing the
      pieces (none of which still holds `[i]`) with the link. */
  lemma MarkerStepIsSplitJoin(text: string, i: nat, src: SourceInfo)
    ensures MarkerStep(text, i, src) == ReplaceAll(text, Marker(i), Link(i, src))
    ensures MarkerStep(text, i, src) == Join(Split(text, Marker(i)), Link(i, src))
    ensures forall k :: 0 <= k < |Split(text, Marker(i))| ==> !Contains(Split(text, Marker(i))[k], Marker(i))
  {
    var marker := Marker(i);
    if !Contains(text, marker) {
      ReplaceAbsent(text, marker, Link(i, src));
    }
    ReplaceIsJoinOfSplit(text, marker, Link(i, src));
    SplitPiecesAvoidSeparator(text, marker);
  }

  lemma MarkerOne()
    ensures Marker(1) == "[1]"
  {
    assert NatToString(1) == "1";
  }

  lemma MarkerTwo()
    ensures Marker(2) == "[2]"
  {
    assert NatToString(2) == "2";
  }

  /** A two-character pattern cannot occur in a text in which its first
      character is never followed by its second. */
  lemma {:induction false} AbsentByPair(s: string, p: string)
    requires |p| == 2
    requires forall j :: 0 <= j < |s| - 1 && s[j] == p[0] ==> s[j + 1] != p[1]
    ensures !Contains(s, p)
    decreases |s|
  {
    if |s| > 0 {
      AbsentByPair(s[1..], p);
      if |s| >= 2 && s[0] == p[0] {
        assert s[1] != p[1];
      }
    }
  }

  /** A marker `[i]` begins with the two characters `[` and its first digit. */
  lemma AbsentMarker(s: string, i: nat)
    requires forall j :: 0 <= j < |s| - 1 && s[j] == '[' ==> s[j + 1] != NatToString(i)[0]
    ensures !Contains(s, Marker(i))
  {
    var m := Marker(i);
    var p := m[..2];
    AbsentByPair(s, p);
    ContainsPrefixOfPattern(s, m, 2);
  }

  /** With two sources, a text whose only marker is `[3]` keeps it literally. */
  lemma UnmatchedMarkerStaysLiteral(a: SourceInfo, b: SourceInfo)
    ensures InsertCitationMarkers("See [3].", [a, b]) == "See [3]."
  {
    var t := "See [3].";
    assert NatToString(1)[0] == '1';
    assert NatToString(2)[0] == '2';
    assert t == ['S', 'e', 'e', ' ', '[', '3', ']', '.'];
    AbsentMarker(t, 1);
    AbsentMarker(t, 2);
  }

  /** No `[` occurs in `s`. */
  predicate NoOpenBracket(s: string) {
    forall k :: 0 <= k < |s| ==> s[k] != '['
  }

  /** A text without `[` passes through the replace of any marker. */
  lemma PlainSkips(x: string, y: string, p: string, r: string)
    requires |p| >= 2 && p[0] == '[' && NoOpenBracket(x)
    ensures ReplaceAll(x + y, p, r) == x + ReplaceAll(y, p, r)
  {
    ReplaceSkips(x, y, p, r);
  }

  /** A marker other than `p` (it differs right after the `[` and holds no
      further `[`) passes through the replace of `p`. */
  lemma OtherMarkerSkips(q: string, z: string, p: string, r: string)
    requires |p| >= 2 && |q| >= 2 && p[0] == '[' && q[0] == '[' && q[1] != p[1]
    requires NoOpenBracket(q[1..])
    ensures ReplaceAll(q + z, p, r) == q + ReplaceAll(z, p, r)
  {
    assert forall k :: 0 < k < |q| ==> q[k] == q[1..][k - 1];
    ReplaceSkips(q, z, p, r);
  }

  /** Replacing the first of two bracketed markers in a text whose other
      characters hold no `[`: the first becomes `r`, the second stays. */
  lemma ReplaceFirstOfTwo(x: string, y: string, z: string, p: string, q: string, r: string)
    requires |p| >= 2 && |q| >= 2 && p[0] == '[' && q[0] == '[' && q[1] != p[1]
    requires NoOpenBracket(x) && NoOpenBracket(y) && NoOpenBracket(z) && NoOpenBracket(q[1..])
    ensures ReplaceAll(x + (p + (y + (q + z))), p, r) == x + (r + (y + (q + z)))
  {
    TailWithOtherMarker(y, q, z, p, r);
    ReplaceAfterSkip(x, y + (q + z), p, r);
  }

  /** Plain text, another marker, plain text: the replace of `p` leaves it
      as it is. */
  lemma TailWithOtherMarker(y: string, q: string, z: string, p: string, r: string)
    requires |p| >= 2 && |q| >= 2 && p[0] == '[' && q[0] == '[' && q[1] != p[1]
    requires NoOpenBracket(y) && NoOpenBracket(z) && NoOpenBracket(q[1..])
    ensures ReplaceAll(y + (q + z), p, r) == y + (q + z)
  {
    ReplaceAbsentPlain(z, p, r);
    OtherMarkerSkips(q, z, p, r);
    PlainSkips(y, q + z, p, r);
  }

  /** Replacing the second of two markers once the first has become a link
      with no `[` after its opening bracket. */
  lemma ReplaceSecondOfTwo(x: string, link: string, y: string, z: string, q: string, r: string)
    requires |q| >= 2 && q[0] == '[' && |link| >= 2 && link[0] == '[' && link[1] != q[1]
    requires NoOpenBracket(x) && NoOpenBracket(link[1..]) && NoOpenBracket(y) && NoOpenBracket(z)
    ensures ReplaceAll(x + (link + (y + (q + z))), q, r) == x + (link + (y + (r + z)))
  {
    ReplaceMarkerInPlain(y, z, q, r);
    OtherMarkerSkips(link, y + (q + z), q, r);
    PlainSkips(x, link + (y + (q + z)), q, r);
  }

  /** The one marker in a text whose other characters hold no `[` is
      replaced. */
  lemma ReplaceMarkerInPlain(y: string, z: string, q: string, r: string)
    requires |q| >= 2 && q[0] == '[' && NoOpenBracket(y) && NoOpenBracket(z)
    ensures ReplaceAll(y + (q + z), q, r) == y + (r + z)
  {
    ReplaceAfterSkip(y, z, q, r);
    ReplaceAbsentPlain(z, q, r);
  }

  lemma ReplaceAbsentPlain(z: string, q: string, r: string)
    requires |q| >= 2 && q[0] == '[' && NoOpenBracket(z)
    ensures ReplaceAll(z, q, r) == z
  {
    PlainSkips(z, [], q, r);
    assert z + [] == z;
  }

  /** A link whose title and URL hold no `[` has no `[` after its opening
      bracket, which is followed by the title's first character (or `]`). */
  lemma LinkShape(i: nat, src: SourceInfo)
    requires NoOpenBracket(TitleOf(src, i)) && NoOpenBracket(UrlOf(src))
    ensures |Link(i, src)| >= 2 && Link(i, src)[0] == '['
    ensures NoOpenBracket(Link(i, src)[1..])
    ensures Link(i, src)[1] == if |TitleOf(src, i)| > 0 then TitleOf(src, i)[0] else ']'
  {
    var t, u := TitleOf(src, i), UrlOf(src);
    var w := t + "](" + u + ")";
    assert Link(i, src) == "[" + w;
    assert Link(i, src)[1..] == w;
    assert forall k :: 0 <= k < |t| ==> w[k] == t[k];
    assert w[|t|] == ']' && w[|t| + 1] == '(';
    assert forall k :: 0 <= k < |u| ==> w[|t| + 2 + k] == u[k];
    assert w[|w| - 1] == ')';
  }

  /** Matched markers become links, each in place: in a text whose only
      brackets are the markers `[1]` and `[2]`, with two sources whose first
      title and URL hold no `[` (and whose first title does not begin with
      `2`), the markers become the two sources' links and nothing else
      changes. */
  lemma MarkersBecomeLinks(x: string, y: string, z: string, a: SourceInfo, b: SourceInfo)
    requires NoOpenBracket(x) && NoOpenBracket(y) && NoOpenBracket(z)
    requires NoOpenBracket(TitleOf(a, 1)) && NoOpenBracket(UrlOf(a))
    requires |TitleOf(a, 1)| == 0 || TitleOf(a, 1)[0] != '2'
    ensures InsertCitationMarkers(x + Marker(1) + y + Marker(2) + z, [a, b]) == x + Link(1, a) + y + Link(2, b) + z
  {
    var t0 := x + (Marker(1) + (y + (Marker(2) + z)));
    Regroup(x, Marker(1), y, Marker(2), z);
    Regroup(x, Link(1, a), y, Link(2, b), z);
    FirstMarkerStep(x, y, z, a);
    SecondMarkerStep(x, y, z, a, b);
    assert InsertCitationMarkers(t0, [a, b]) == MarkerStep(MarkerStep(t0, 1, a), 2, b);
  }

  /** The first step of `MarkersBecomeLinks`: `[1]` becomes the first link. */
  lemma FirstMarkerStep(x: string, y: string, z: string, a: SourceInfo)
    requires NoOpenBracket(x) && NoOpenBracket(y) && NoOpenBracket(z)
    ensures MarkerStep(x + (Marker(1) + (y + (Marker(2) + z))), 1, a) == x + (Link(1, a) + (y + (Marker(2) + z)))
  {
    MarkerOne();
    MarkerTwo();
    var m1, m2 := Marker(1), Marker(2);
    var t0 := x + (m1 + (y + (m2 + z)));
    assert OccursAt(t0, m1, |x|) by {
      assert t0 == x + m1 + (y + (m2 + z));
    }
    ContainsIffOccurs(t0, m1);
    assert NoOpenBracket(m2[1..]) by {
      assert m2[1..] == "2]";
    }
    ReplaceFirstOfTwo(x, y, z, m1, m2, Link(1, a));
  }

  /** The second step of `MarkersBecomeLinks`: `[2]` becomes the second
      link, the first link staying as it is. */
  lemma SecondMarkerStep(x: string, y: string, z: string, a: SourceInfo, b: SourceInfo)
    requires NoOpenBracket(x) && NoOpenBracket(y) && NoOpenBracket(z)
    requires NoOpenBracket(TitleOf(a, 1)) && NoOpenBracket(UrlOf(a))
    requires |TitleOf(a, 1)| == 0 || TitleOf(a, 1)[0] != '2'
    ensures MarkerStep(x + (Link(1, a) + (y + (Marker(2) + z))), 2, b) == x + (Link(1, a) + (y + (Link(2, b) + z)))
  {
    MarkerTwo();
    var m2, la := Marker(2), Link(1, a);
    var t1 := x + (la + (y + (m2 + z)));
    assert OccursAt(t1, m2, |x + (la + y)|) by {
      assert t1 == (x + (la + y)) + m2 + z;
    }
    ContainsIffOccurs(t1, m2);
    LinkShape(1, a);
    ReplaceSecondOfTwo(x, la, y, z, m2, Link(2, b));
  }

  /** Concatenation of five pieces, grouped to the right. */
  lemma Regroup(a: string, b: string, c: string, d: string, e: string)
    ensures a + b + c + d + e == a + (b + (c + (d + e)))
  {
  }

  // ---------------------------------------------------------------------
  // insert_citation_markers for any number of sources
  // ---------------------------------------------------------------------

  /** A source whose link cannot be mistaken for a marker: its title and
      URL hold no `[`, its title no `]`, and its title is not a bare
      number (a title `1` would give the link `[1](url)`, which holds the
      marker `[1]`). The default title `Source i` qualifies. */
  predicate PlainSource(src: SourceInfo, i: nat) {
    var t := TitleOf(src, i);
    && '[' !in t && ']' !in t && '[' !in UrlOf(src)
    && (t == "" || !AllDigits(t))
  }

  predicate PlainSources(sources: seq<SourceInfo>) {
    forall k :: 0 <= k < |sources| ==> PlainSource(sources[k], k + 1)
  }

  /** A marker is `[`, the digits of its number, `]`. */
  lemma MarkerShape(j: nat)
    ensures |Marker(j)| == |NatToString(j)| + 2 >= 3
    ensures Marker(j)[0] == '[' && Marker(j)[|Marker(j)| - 1] == ']'
    ensures forall k :: 0 <= k < |NatToString(j)| ==> Marker(j)[k + 1] == NatToString(j)[k]
    ensures '[' !in Marker(j)[1..] && ')' !in Marker(j)
  {
    var d := NatToString(j);
    var m := Marker(j);
    assert forall k :: 0 <= k < |d| ==> m[k + 1] == d[k];
    assert forall k :: 1 <= k < |m| ==> m[k] == ']' || IsDigit(m[k]);
    assert forall c :: c in m[1..] ==> c == ']' || IsDigit(c);
  }

  /** A link is `[`, the title, `](`, the URL, `)`; with a plain source it
      holds `[` only at its start. */
  lemma LinkParts(i: nat, src: SourceInfo)
    ensures var l, t := Link(i, src), TitleOf(src, i);
      && |l| == |t| + |UrlOf(src)| + 4
      && l[0] == '[' && l[|t| + 1] == ']' && l[|l| - 1] == ')'
      && (forall k :: 0 <= k < |t| ==> l[k + 1] == t[k])
    ensures PlainSource(src, i) ==> '[' !in Link(i, src)[1..]
  {
    var t, u := TitleOf(src, i), UrlOf(src);
    var w := t + "](" + u + ")";
    assert Link(i, src) == "[" + w;
    assert Link(i, src)[1..] == w;
    assert forall k :: 0 <= k < |t| ==> w[k] == t[k];
    assert forall k :: 0 <= k < |u| ==> w[|t| + 2 + k] == u[k];
    assert forall k :: 0 <= k < |w| ==> w[k] in t || w[k] in u || w[k] in "]()";
  }

  /** Two different markers differ at an index both have. */
  lemma MarkersDiverge(a: nat, b: nat)
    requires a != b
    ensures Diverge(Marker(a), Marker(b))
  {
    var da, db := NatToString(a), NatToString(b);
    var ma, mb := Marker(a), Marker(b);
    MarkerShape(a);
    MarkerShape(b);
    if |da| == |db| {
      NatToStringInjective(a, b);
      var k :| 0 <= k < |da| && da[k] != db[k];
      assert ma[k + 1] != mb[k + 1];
    } else if |da| < |db| {
      assert ma[|da| + 1] == ']' != mb[|da| + 1];
    } else {
      assert mb[|db| + 1] == ']' != ma[|db| + 1];
    }
  }

  /** A marker and the link of a plain source differ at an index both
      have. */
  lemma MarkerLinkDiverge(j: nat, i: nat, src: SourceInfo)
    requires PlainSource(src, i)
    ensures Diverge(Marker(j), Link(i, src))
  {
    var d, t := NatToString(j), TitleOf(src, i);
    var m, l := Marker(j), Link(i, src);
    MarkerShape(j);
    LinkParts(i, src);
    if |t| < |d| {
      assert l[|t| + 1] == ']' != m[|t| + 1];
    } else if |t| > |d| {
      assert t[|d|] in t;
      assert m[|d| + 1] == ']' != l[|d| + 1];
    } else {
      var k :| 0 <= k < |t| && !IsDigit(t[k]);
      assert m[k + 1] != l[k + 1];
    }
  }

  /** The link of a plain source contains no marker. */
  lemma LinkAvoidsMarker(i: nat, src: SourceInfo, j: nat)
    requires PlainSource(src, i)
    ensures !Contains(Link(i, src), Marker(j))
  {
    var l, m := Link(i, src), Marker(j);
    MarkerShape(j);
    LinkParts(i, src);
    MarkerLinkDiverge(j, i, src);
    assert !(m <= l);
    assert l[1..] + [] == l[1..];
    SkipLeading(l[1..], [], m);
  }

  /** Each step is a plain replace: the `in` guard changes nothing. */
  lemma MarkerStepIsReplace(text: string, i: nat, src: SourceInfo)
    ensures MarkerStep(text, i, src) == ReplaceAll(text, Marker(i), Link(i, src))
  {
    if !Contains(text, Marker(i)) {
      ReplaceAbsent(text, Marker(i), Link(i, src));
    }
  }

  /** With plain sources, once sources `1..k` are processed none of the
      markers `[1]..[k]` is left: each was replaced, and no link creates
      one again. */
  lemma {:induction false} MarkersReplaced(text: string, sources: seq<SourceInfo>, k: nat)
    requires k <= |sources| && PlainSources(sources)
    ensures forall i :: 1 <= i <= k ==> !Contains(ApplyMarkers(text, sources, k), Marker(i))
    decreases k
  {
    if k > 0 {
      MarkersReplaced(text, sources, k - 1);
      var t := ApplyMarkers(text, sources, k - 1);
      assert PlainSource(sources[k - 1], k);
      forall i | 1 <= i <= k
        ensures !Contains(MarkerStep(t, k, sources[k - 1]), Marker(i))
      {
        StepLeavesNoMarker(t, k, sources[k - 1], i);
      }
    }
  }

  /** The step for source `k` leaves neither `[k]` nor any marker that was
      already gone. */
  lemma StepLeavesNoMarker(t: string, k: nat, src: SourceInfo, i: nat)
    requires PlainSource(src, k)
    requires i == k || !Contains(t, Marker(i))
    ensures !Contains(MarkerStep(t, k, src), Marker(i))
  {
    MarkerStepIsReplace(t, k, src);
    LinkParts(k, src);
    MarkerShape(i);
    MarkerShape(k);
    LinkAvoidsMarker(k, src, i);
    ReplaceAvoids(t, Marker(k), Link(k, src), Marker(i));
  }

  /** No marker of `[1]..[n]` is left in the result, for any number of
      plain sources. */
  lemma NoMatchedMarkerLeft(text: string, sources: seq<SourceInfo>)
    requires PlainSources(sources)
    ensures forall i :: 1 <= i <= |sources| ==> !Contains(InsertCitationMarkers(text, sources), Marker(i))
  {
    MarkersReplaced(text, sources, |sources|);
  }

  /** A marker whose number has no source among `1..k` survives the
      processing of sources `1..k`. */
  lemma {:induction false} UnmatchedMarkersStay(text: string, sources: seq<SourceInfo>, k: nat, j: nat)
    requires k <= |sources| && !(1 <= j <= k)
    ensures Contains(text, Marker(j)) ==> Contains(ApplyMarkers(text, sources, k), Marker(j))
    decreases k
  {
    if k > 0 {
      UnmatchedMarkersStay(text, sources, k - 1, j);
      var t := ApplyMarkers(text, sources, k - 1);
      MarkerStepIsReplace(t, k, sources[k - 1]);
      MarkerShape(k);
      MarkerShape(j);
      MarkersDiverge(k, j);
      ReplaceKeeps(t, Marker(k), Link(k, sources[k - 1]), Marker(j));
    }
  }

  /** A marker with no matching source stays in the text literally: the
      general form of `[3]` with two sources. */
  lemma UnmatchedMarkerKept(text: string, sources: seq<SourceInfo>, j: nat)
    requires !(1 <= j <= |sources|)
    ensures Contains(text, Marker(j)) ==> Contains(InsertCitationMarkers(text, sources), Marker(j))
  {
    UnmatchedMarkersStay(text, sources, |sources|, j);
  }

  /** The link of source `i`, once in the text, survives the processing of
      the later sources. */
  lemma {:induction false} LinkSurvives(text: string, sources: seq<SourceInfo>, i: nat, k: nat)
    requires 1 <= i <= k <= |sources| && PlainSources(sources)
    ensures Contains(ApplyMarkers(text, sources, i), Link(i, sources[i - 1])) ==>
            Contains(ApplyMarkers(text, sources, k), Link(i, sources[i - 1]))
    decreases k
  {
    if k > i {
      LinkSurvives(text, sources, i, k - 1);
      assert PlainSource(sources[i - 1], i);
      StepKeepsLink(ApplyMarkers(text, sources, k - 1), k, sources[k - 1], i, sources[i - 1]);
    }
  }

  /** The step for source `k` keeps the link of a plain source `i`. */
  lemma StepKeepsLink(t: string, k: nat, src: SourceInfo, i: nat, linked: SourceInfo)
    requires PlainSource(linked, i)
    ensures Contains(t, Link(i, linked)) ==> Contains(MarkerStep(t, k, src), Link(i, linked))
  {
    MarkerStepIsReplace(t, k, src);
    MarkerShape(k);
    LinkParts(i, linked);
    MarkerLinkDiverge(k, i, linked);
    ReplaceKeeps(t, Marker(k), Link(k, src), Link(i, linked));
  }

  /** Every marker `[i]` of the text with a source `i` becomes that
      source's link, for any number of plain sources. */
  lemma MatchedMarkerBecomesLink(text: string, sources: seq<SourceInfo>, i: nat)
    requires 1 <= i <= |sources| && PlainSources(sources)
    ensures Contains(text, Marker(i)) ==> Contains(InsertCitationMarkers(text, sources), Link(i, sources[i - 1]))
  {
    UnmatchedMarkersStay(text, sources, i - 1, i);
    var t := ApplyMarkers(text, sources, i - 1);
    MarkerStepIsReplace(t, i, sources[i - 1]);
    ReplaceInserts(t, Marker(i), Link(i, sources[i - 1]));
    LinkSurvives(text, sources, i, |sources|);
  }

  // ---------------------------------------------------------------------
  // format_sources_for_citation
  // ---------------------------------------------------------------------

  /** The line `[i] [title](url)` for the `i`-th source. */
  function CitationLine(i: nat, src: SourceInfo): string {
    Marker(i) + " " + Link(i, src)
  }

  /** One citation line per source, numbered from 1. */
  function CitationLines(sources: seq<SourceInfo>): (lines: seq<string>)
    ensures |lines| == |sources|
    ensures forall k :: 0 <= k < |sources| ==> lines[k] == CitationLine(k + 1, sources[k])
  {
    seq(|sources|, k requires 0 <= k < |sources| => CitationLine(k + 1, sources[k]))
  }

  /** No title or URL of the sources contains a line break. */
  predicate SingleLineSources(sources: seq<SourceInfo>) {
    forall k :: 0 <= k < |sources| ==>
      '\n' !in sources[k].title.GetOr("") && '\n' !in sources[k].url.GetOr("")
  }

  lemma CitationLineSingle(i: nat, src: SourceInfo)
    requires '\n' !in src.title.GetOr("") && '\n' !in src.url.GetOr("")
    ensures '\n' !in CitationLine(i, src)
  {
    var digits := NatToString(i);
    assert forall k :: 0 <= k < |digits| ==> IsDigit(digits[k]);
    assert '\n' !in "Source " + digits;
  }

  /** Empty input gives the empty string; otherwise the result is the
      citation lines joined by line breaks, and, when no title or URL holds a
      line break itself, splitting it at line breaks gives back exactly one
      line `[i] [title](url)` per source, in order. */
  function FormatSourcesForCitation(sources: seq<SourceInfo>): (r: string)
    ensures |sources| == 0 ==> r == ""
    ensures |sources| > 0 && SingleLineSources(sources) ==> Split(r, "\n") == CitationLines(sources)
  {
    if |sources| == 0 then ""
    else
      var lines := CitationLines(sources);
      var r := Join(lines, "\n");
      if SingleLineSources(sources) then
        assert forall k :: 0 <= k < |lines| ==> '\n' !in lines[k] by {
          forall k | 0 <= k < |lines|
            ensures '\n' !in lines[k]
          {
            CitationLineSingle(k + 1, sources[k]);
          }
        }
        JoinSplitRoundTrip(lines, '\n');
        r
      else r
  }

  // ---------------------------------------------------------------------
  // extract_numbered_citations
  // ---------------------------------------------------------------------

  /** The end of the run of digits starting at `i`. */
  function DigitRunEnd(text: string, i: nat): (j: nat)
    requires i <= |text|
    ensures i <= j <= |text|
    ensures AllDigits(text[i..j])
    ensures j < |text| ==> !IsDigit(text[j])
    decreases |text| - i
  {
    if i < |text| && IsDigit(text[i]) then
      var j := DigitRunEnd(text, i + 1);
      assert text[i..j] == [text[i]] + text[i + 1..j];
      j
    else i
  }

  /** A match of `\[(\d+)\]`: the value of its digits and the index just
      past its closing bracket. */
  datatype CitationMatch = CitationMatch(value: nat, next: nat)

  /** The match of `[digits]` starting exactly at index `i`, if any. */
  function MatchAt(text: string, i: nat): (m: Option<CitationMatch>)
    ensures m.Some? ==> i < m.value.next <= |text|
  {
    if i < |text| && text[i] == '[' then
      var j := DigitRunEnd(text, i + 1);
      if j > i + 1 && j < |text| && text[j] == ']'
      then Some(CitationMatch(ParseDecimal(text[i + 1..j]), j + 1))
      else None
    else None
  }

  /** `re.findall` with the pattern `\[(\d+)\]` from index `i`, each match
      converted to its integer value: scanning left to right, resuming after
      each match. */
  function FindAll(text: string, i: nat): seq<nat>
    decreases |text| - i
  {
    if i >= |text| then []
    else match MatchAt(text, i)
      case Some(m) => [m.value] + FindAll(text, m.next)
      case None => FindAll(text, i + 1)
  }

  /** The values of all `[digits]` occurrences of `text` at index `i` or later. */
  ghost function ValuesFrom(text: string, i: nat): set<nat> {
    set k: nat | i <= k < |text| && MatchAt(text, k).Some? :: MatchAt(text, k).value.value
  }

  /** The values of all `[digits]` occurrences of `text`. */
  ghost function CitationValues(text: string): set<nat> {
    ValuesFrom(text, 0)
  }

  /** No match can start inside a match: its inside is digits and `]`. */
  lemma NoMatchInsideMatch(text: string, i: nat, k: nat)
    requires MatchAt(text, i).Some?
    requires i < k < MatchAt(text, i).value.next
    ensures MatchAt(text, k).None?
  {
    var j := DigitRunEnd(text, i + 1);
    if k < j {
      assert text[i + 1..j][k - (i + 1)] == text[k];
    }
  }

  /** Scanning from `i` finds the value of every occurrence at `i` or later,
      and nothing else: resuming after a match skips no occurrence. */
  lemma {:induction false} FindAllFindsEverything(text: string, i: nat)
    ensures forall v :: v in FindAll(text, i) <==> v in ValuesFrom(text, i)
    decreases |text| - i
  {
    if i >= |text| {
      assert ValuesFrom(text, i) == {};
    } else {
      match MatchAt(text, i)
      case Some(m) =>
        FindAllFindsEverything(text, m.next);
        forall k: nat | i < k < m.next
          ensures MatchAt(text, k).None?
        {
          NoMatchInsideMatch(text, i, k);
        }
        assert ValuesFrom(text, i) == {m.value} + ValuesFrom(text, m.next);
      case None =>
        FindAllFindsEverything(text, i + 1);
        assert ValuesFrom(text, i) == ValuesFrom(text, i + 1);
    }
  }

  predicate StrictlyIncreasing(r: seq<nat>) {
    forall a, b :: 0 <= a < b < |r| ==> r[a] < r[b]
  }

  /** Inserts `x` into a strictly increasing sequence, keeping it strictly
      increasing and without duplicates. */
  function InsertSorted(x: nat, r: seq<nat>): (s: seq<nat>)
    requires StrictlyIncreasing(r)
    ensures StrictlyIncreasing(s)
    ensures forall v :: v in s <==> v == x || v in r
    decreases |r|
  {
    if |r| == 0 then [x]
    else if x < r[0] then [x] + r
    else if x == r[0] then r
    else
      var t := InsertSorted(x, r[1..]);
      assert forall v :: v in r <==> v == r[0] || v in r[1..];
      assert forall k :: 0 <= k < |t| ==> t[k] > r[0] by {
        forall k | 0 <= k < |t|
          ensures t[k] > r[0]
        {
          assert t[k] in t;
        }
      }
      [r[0]] + t
  }

  /** Python's `sorted(set(xs))`. */
  function SortedUnique(xs: seq<nat>): (s: seq<nat>)
    ensures StrictlyIncreasing(s)
    ensures forall v :: v in s <==> v in xs
    decreases |xs|
  {
    if |xs| == 0 then []
    else
      var s := InsertSorted(xs[0], SortedUnique(xs[1..]));
      assert forall v :: v in xs <==> v == xs[0] || v in xs[1..];
      s
  }

  /** The sorted, duplicate-free list of the values of all `[digits]`
      citations of the text: every element is the value of some occurrence
      and every occurrence's value is present. */
  function ExtractNumberedCitations(text: string): (r: seq<nat>)
    ensures StrictlyIncreasing(r)
    ensures forall v :: v in r <==> v in CitationValues(text)
  {
    FindAllFindsEverything(text, 0);
    SortedUnique(FindAll(text, 0))
  }

  /** A strictly increasing list is determined by its elements, so the
      contract of `ExtractNumberedCitations` pins its result down exactly. */
  lemma {:induction false} StrictlyIncreasingUnique(a: seq<nat>, b: seq<nat>)
    requires StrictlyIncreasing(a) && StrictlyIncreasing(b)
    requires forall v :: v in a <==> v in b
    ensures a == b
    decreases |a|
  {
    if |a| > 0 {
      assert a[0] in b;
    }
    if |b| > 0 {
      assert b[0] in a;
    }
    if |a| > 0 && |b| > 0 {
      assert a[0] == b[0] by {
        assert b[0] in a;
        assert a[0] in b;
      }
      forall v
        ensures v in a[1..] <==> v in b[1..]
      {
        if v in a[1..] {
          assert v in b && v > a[0];
        }
        if v in b[1..] {
          assert v in a && v > b[0];
        }
      }
      StrictlyIncreasingUnique(a[1..], b[1..]);
      assert a == [a[0]] + a[1..];
      assert b == [b[0]] + b[1..];
    }
  }

  // ---------------------------------------------------------------------
  // create_citation_mapping
  // ---------------------------------------------------------------------

  datatype CitationEntry = CitationEntry(title: string, url: string, snippet: string)

  /** The entry for the `i`-th source, with the defaults applied. */
  function EntryFor(i: nat, src: SourceInfo): CitationEntry {
    CitationEntry(TitleOf(src, i), UrlOf(src), src.snippet.GetOr(""))
  }

  /** Citation number `i` (exactly `1..n`) mapped to the entry of `sources[i-1]`. */
  function CreateCitationMapping(sources: seq<SourceInfo>): (m: map<nat, CitationEntry>)
    ensures forall i :: i in m <==> 1 <= i <= |sources|
    ensures forall i :: 1 <= i <= |sources| ==> m[i] == EntryFor(i, sources[i - 1])
    decreases |sources|
  {
    if |sources| == 0 then map[]
    else
      var n := |sources|;
      CreateCitationMapping(sources[..n - 1])[n := EntryFor(n, sources[n - 1])]
  }

  /** The three helpers agree on every source: the formatted line, the link
      that replaces marker `[i]`, and the citation-mapping entry all show the
      same title and URL. */
  lemma CitationHelpersAgree(sources: seq<SourceInfo>, i: nat)
    requires 1 <= i <= |sources|
    ensures CitationLines(sources)[i - 1] == Marker(i) + " " + Link(i, sources[i - 1])
    ensures Link(i, sources[i - 1]) ==
      "[" + CreateCitationMapping(sources)[i].title + "](" + CreateCitationMapping(sources)[i].url + ")"
  {
  }

  // ---------------------------------------------------------------------
  // create_short_urls
  // ---------------------------------------------------------------------

  const ShortUrlPrefix: string := "https://search-results.com/id/"

  /** The URL key of a source, `""` when missing. */
  function UrlKey(src: SourceInfo): string {
    src.url.GetOr("")
  }

  /** The short URL for the source at 0-based index `idx` of batch `id`. */
  function ShortUrl(id: int, idx: nat): string {
    ShortUrlPrefix + IntToString(id) + "-" + NatToString(idx)
  }

  /** Within one batch, different indices give different short URLs. */
  lemma ShortUrlInjective(id: int, a: nat, b: nat)
    ensures ShortUrl(id, a) == ShortUrl(id, b) ==> a == b
  {
    var p := ShortUrlPrefix + IntToString(id) + "-";
    assert NatToString(a) == ShortUrl(id, a)[|p|..];
    assert NatToString(b) == ShortUrl(id, b)[|p|..];
    if NatToString(a) == NatToString(b) {
      NatToStringInjective(a, b);
    }
  }

  /** The source at `k` is the first with its URL key. */
  ghost predicate FirstWithUrl(sources: seq<SourceInfo>, k: int)
    requires 0 <= k < |sources|
  {
    forall j :: 0 <= j < k ==> UrlKey(sources[j]) != UrlKey(sources[k])
  }

  /** The distinct non-empty URLs among the first `n` sources. */
  ghost function UrlsOf(sources: seq<SourceInfo>, n: nat): set<string>
    requires n <= |sources|
  {
    set k | 0 <= k < n && UrlKey(sources[k]) != "" :: UrlKey(sources[k])
  }

  /** Maps each distinct non-empty URL to the short URL built from the index
      of its first occurrence; later duplicates never overwrite, and distinct
      URLs get distinct short URLs. */
  method CreateShortUrls(sources: seq<SourceInfo>, id: int) returns (m: map<string, string>)
    ensures m.Keys == UrlsOf(sources, |sources|)
    ensures forall k :: 0 <= k < |sources| && UrlKey(sources[k]) != "" && FirstWithUrl(sources, k) ==>
      m[UrlKey(sources[k])] == ShortUrl(id, k)
    ensures forall u, v :: u in m && v in m && u != v ==> m[u] != m[v]
  {
    m := map[];
    var idx := 0;
    while idx < |sources|
      invariant 0 <= idx <= |sources|
      invariant m == ShortUrlsUpTo(sources, id, idx)
    {
      var url := UrlKey(sources[idx]);
      if url != "" && url !in m {
        m := m[url := ShortUrl(id, idx)];
      }
      idx := idx + 1;
    }
    ShortUrlsKeys(sources, id, |sources|);
    ShortUrlsFirst(sources, id, |sources|);
    ShortUrlsInjective(sources, id, |sources|);
  }

  /** The map after the first `n` sources: a URL is added, with the short
      URL of its index, only when it is non-empty and not yet present. */
  function ShortUrlsUpTo(sources: seq<SourceInfo>, id: int, n: nat): map<string, string>
    requires n <= |sources|
    decreases n
  {
    if n == 0 then map[]
    else
      var m := ShortUrlsUpTo(sources, id, n - 1);
      var url := UrlKey(sources[n - 1]);
      if url != "" && url !in m then m[url := ShortUrl(id, n - 1)] else m
  }

  /** One more source adds its URL key, when non-empty, to the URLs seen. */
  lemma UrlsOfStep(sources: seq<SourceInfo>, n: nat)
    requires n < |sources|
    ensures UrlsOf(sources, n + 1) == UrlsOf(sources, n) + (if UrlKey(sources[n]) != "" then {UrlKey(sources[n])} else {})
  {
  }

  /** The keys are exactly the distinct non-empty URLs seen. */
  lemma {:induction false} ShortUrlsKeys(sources: seq<SourceInfo>, id: int, n: nat)
    requires n <= |sources|
    ensures ShortUrlsUpTo(sources, id, n).Keys == UrlsOf(sources, n)
    decreases n
  {
    if n > 0 {
      ShortUrlsKeys(sources, id, n - 1);
      UrlsOfStep(sources, n - 1);
    }
  }

  /** The first source with a given URL names its short URL; later
      duplicates never overwrite it. */
  lemma {:induction false} ShortUrlsFirst(sources: seq<SourceInfo>, id: int, n: nat)
    requires n <= |sources|
    ensures forall k :: 0 <= k < n && UrlKey(sources[k]) != "" && FirstWithUrl(sources, k) ==>
      UrlKey(sources[k]) in ShortUrlsUpTo(sources, id, n) &&
      ShortUrlsUpTo(sources, id, n)[UrlKey(sources[k])] == ShortUrl(id, k)
    decreases n
  {
    if n > 0 {
      ShortUrlsFirst(sources, id, n - 1);
      ShortUrlsKeys(sources, id, n - 1);
      forall k | 0 <= k < n && UrlKey(sources[k]) != "" && FirstWithUrl(sources, k)
        ensures UrlKey(sources[k]) in ShortUrlsUpTo(sources, id, n) &&
                ShortUrlsUpTo(sources, id, n)[UrlKey(sources[k])] == ShortUrl(id, k)
      {
        ShortUrlsFirstStep(sources, id, n, k);
      }
    }
  }

  /** One step of `ShortUrlsFirst`: source `n - 1` keeps the entry of an
      earlier first occurrence, and adds its own when it is one. */
  lemma ShortUrlsFirstStep(sources: seq<SourceInfo>, id: int, n: nat, k: nat)
    requires 0 < n <= |sources| && k < n
    requires UrlKey(sources[k]) != "" && FirstWithUrl(sources, k)
    requires ShortUrlsUpTo(sources, id, n - 1).Keys == UrlsOf(sources, n - 1)
    requires k < n - 1 ==>
      UrlKey(sources[k]) in ShortUrlsUpTo(sources, id, n - 1) &&
      ShortUrlsUpTo(sources, id, n - 1)[UrlKey(sources[k])] == ShortUrl(id, k)
    ensures UrlKey(sources[k]) in ShortUrlsUpTo(sources, id, n)
    ensures ShortUrlsUpTo(sources, id, n)[UrlKey(sources[k])] == ShortUrl(id, k)
  {
    var m, m' := ShortUrlsUpTo(sources, id, n - 1), ShortUrlsUpTo(sources, id, n);
    var url, u := UrlKey(sources[n - 1]), UrlKey(sources[k]);
    assert m' == if url != "" && url !in m then m[url := ShortUrl(id, n - 1)] else m;
    if k == n - 1 {
      NewUrlUnseen(sources, k);
      assert url !in m;
    } else {
      assert url == u ==> m' == m;
    }
  }

  /** The first source with its URL key adds a URL not seen before. */
  lemma NewUrlUnseen(sources: seq<SourceInfo>, k: nat)
    requires k < |sources| && FirstWithUrl(sources, k)
    ensures UrlKey(sources[k]) !in UrlsOf(sources, k)
  {
  }

  /** Every entry belongs to a source with that URL and carries that
      source's short URL. */
  lemma {:induction false} ShortUrlsOwned(sources: seq<SourceInfo>, id: int, n: nat, u: string)
    requires n <= |sources| && u in ShortUrlsUpTo(sources, id, n)
    ensures exists k :: 0 <= k < n && UrlKey(sources[k]) == u && ShortUrlsUpTo(sources, id, n)[u] == ShortUrl(id, k)
    decreases n
  {
    var m := ShortUrlsUpTo(sources, id, n - 1);
    var url := UrlKey(sources[n - 1]);
    if url != "" && url !in m && u == url {
      assert UrlKey(sources[n - 1]) == u;
    } else {
      ShortUrlsOwned(sources, id, n - 1, u);
    }
  }

  /** Distinct URLs get distinct short URLs. */
  lemma ShortUrlsInjective(sources: seq<SourceInfo>, id: int, n: nat)
    requires n <= |sources|
    ensures forall u, v :: u in ShortUrlsUpTo(sources, id, n) && v in ShortUrlsUpTo(sources, id, n) && u != v ==>
      ShortUrlsUpTo(sources, id, n)[u] != ShortUrlsUpTo(sources, id, n)[v]
  {
    var m := ShortUrlsUpTo(sources, id, n);
    forall u, v | u in m && v in m && u != v
      ensures m[u] != m[v]
    {
      ShortUrlsOwned(sources, id, n, u);
      ShortUrlsOwned(sources, id, n, v);
      var ku :| 0 <= ku < n && UrlKey(sources[ku]) == u && m[u] == ShortUrl(id, ku);
      var kv :| 0 <= kv < n && UrlKey(sources[kv]) == v && m[v] == ShortUrl(id, kv);
      ShortUrlInjective(id, ku, kv);
    }
  }

  // ---------------------------------------------------------------------
  // get_research_topic
  // ---------------------------------------------------------------------

  /** A conversation message: from the user, from the assistant, or of any
      other kind (system, tool, ...). */
  datatype Message = HumanMessage(content: string) | AiMessage(content: string) | OtherMessage(content: string)

  predicate IsChat(msg: Message) {
    msg.HumanMessage? || msg.AiMessage?
  }

  /** The transcript line of one message; other kinds contribute nothing. */
  function TranscriptLine(msg: Message): string {
    match msg
    case HumanMessage(c) => "User: " + c + "\n"
    case AiMessage(c) => "Assistant: " + c + "\n"
    case OtherMessage(_) => ""
  }

  /** The transcript lines of the messages, in order. */
  function Transcript(msgs: seq<Message>): string
    decreases |msgs|
  {
    if |msgs| == 0 then "" else Transcript(msgs[..|msgs| - 1]) + TranscriptLine(msgs[|msgs| - 1])
  }

  /** The user and assistant messages, in order. */
  function ChatOnly(msgs: seq<Message>): (r: seq<Message>)
    ensures forall k :: 0 <= k < |r| ==> IsChat(r[k])
    decreases |msgs|
  {
    if |msgs| == 0 then []
    else if IsChat(msgs[|msgs| - 1]) then ChatOnly(msgs[..|msgs| - 1]) + [msgs[|msgs| - 1]]
    else ChatOnly(msgs[..|msgs| - 1])
  }

  /** The transcript of a concatenated history is the concatenation of the
      transcripts: messages contribute in order. */
  lemma {:induction false} TranscriptAppend(a: seq<Message>, b: seq<Message>)
    ensures Transcript(a + b) == Transcript(a) + Transcript(b)
    decreases |b|
  {
    if |b| > 0 {
      var b' := b[..|b| - 1];
      assert (a + b)[..|a + b| - 1] == a + b';
      TranscriptAppend(a, b');
    } else {
      assert a + b == a;
    }
  }

  /** Messages that are neither from the user nor the assistant are skipped. */
  lemma {:induction false} TranscriptSkipsOthers(msgs: seq<Message>)
    ensures Transcript(ChatOnly(msgs)) == Transcript(msgs)
    decreases |msgs|
  {
    if |msgs| > 0 {
      var init := msgs[..|msgs| - 1];
      var last := msgs[|msgs| - 1];
      TranscriptSkipsOthers(init);
      if IsChat(last) {
        TranscriptAppend(ChatOnly(init), [last]);
      }
    }
  }

  /** A one-message history gives that message's content (whatever its
      kind); any other history gives the transcript of its user and
      assistant messages only, which is empty for an empty history. */
  function GetResearchTopic(msgs: seq<Message>): (topic: string)
    ensures |msgs| == 1 ==> topic == msgs[0].content
    ensures |msgs| != 1 ==> topic == Transcript(ChatOnly(msgs))
    ensures |msgs| == 0 ==> topic == ""
  {
    if |msgs| == 1 then msgs[0].content
    else
      TranscriptSkipsOthers(msgs);
      Transcript(msgs)
  }
}

=== FILE: wrappers.dfy ===
/** Optional values and fallible results, used wherever the source reads a
    dictionary key that may be missing or calls a capability that may raise. */
module Wrappers {

  /** A value that may be absent: a missing dictionary key, or a key whose
      Python value is None. */
  datatype Option<+T> = None | Some(value: T) {

    /** The value, or `default` when absent (Python's `d.get(key, default)`). */
    function GetOr(default: T): T {
      match this
      case Some(v) => v
      case None => default
    }
  }

  /** The outcome of a call that may raise: `Err` carries the exception's message. */
  datatype Result<+T> = Ok(value: T) | Err(error: string)
}
